=== FILE: README.md ===
# Segmentation and batch import, modelled in Dafny

This project models the two services of a sales-analytics back end:

- **Segment matching and enrichment** (`SegmentationService`). A segment's
  criteria select the customers whose orders pass a row filter on date range,
  product category and region. The surviving orders are grouped by customer
  business key, and the groups must fall inside optional count and revenue
  bounds. The matched customers are then paged and enriched with total spent,
  order count, average order value and distinct categories.
- **Batch import** (`DataImportService`). Decoded CSV rows are processed in
  chunks of 1000 inside one transaction. Each chunk derives customers, products
  and orders and inserts them with skip-on-duplicate semantics. A refresh-log
  row records the run: `started`, then exactly one of `success` or `failed`.

The database is plain values. A `Store` holds three append-only tables
(customers, products, orders) as sequences. A customer's internal id is its
position in its table. The segment table and the log table are sequences too.
Every ORM call becomes a pure function, except the chunk loop and the run,
which are methods. The chunk loop carries the loop invariants; the run calls it
and finalizes the log row.

Files and modules:

- `wrappers.dfy` (`Wrappers`): `Option`, `Result`, `Min`.
- `tables.dfy` (`Tables`): the entities, business keys, key sets, the product join, and the store's integrity predicates.
- `skip_insert.dfy` (`SkipInsert`): the skip-on-duplicate bulk insert, with a reference definition of what it stores.
- `pagination.dfy` (`Pagination`): offset pagination, the page count, and newest-first listing.
- `segmentation.dfy` (`Segmentation`): criteria, row filter, grouping, having clause, id resolution, enrichment, segment lookup and listing.
- `segmentation_properties.dfy` (`SegmentationProperties`): lemmas about matching and enrichment, and concrete examples.
- `data_import.dfy` (`DataImport`): row derivation, the batch, the chunk loop, the refresh log, the run, and log listing.
- `import_properties.dfy` (`ImportProperties`): lemmas about the import. These cover chunking, idempotence, failure on a bad date, key growth and integrity.

Transactions: the chunk loop of `processCSV` runs inside one
`prisma.$transaction` (src/services/dataImport.service.ts:28-39). A failure in
any chunk therefore rolls back every chunk's inserts and every progress update.
Only the log row, written outside the transaction, survives and is marked
`failed`. Earlier chunks therefore do not stay committed when a later chunk
fails: `ProcessCsv` leaves the store unchanged and `recordsProcessed` at 0 when
the transaction fails. `ChunkingInvisible` shows that the run then
behaves exactly like one batch of all rows.

## Model

| member | source | states |
|---|---|---|
| Tables.FindProduct | src/services/segmentation.service.ts:153-157 | The product join: a product is found only when the key occurs in the product table, and what it returns carries that key |
| SkipInsert.Insert | src/services/dataImport.service.ts:70-73 | Skip-duplicate insert keeps every existing row in place. The key set becomes the old keys plus the batch's keys. Unique keys stay unique. Every appended row comes from the batch and carries a key that was not stored before |
| SkipInsert.InsertAppendsNewRows | src/services/dataImport.service.ts:70-73 | The table after the insert is the old table followed by exactly the batch rows whose key is neither stored nor seen earlier in the batch |
| SkipInsert.InsertConcat | src/services/dataImport.service.ts:83-86 | Inserting a batch in two parts, one after the other, stores the same rows as inserting it at once |
| SkipInsert.InsertKnownKeys | src/services/dataImport.service.ts:116-119 | A batch whose keys are all stored changes nothing; existing records are never overwritten |
| SkipInsert.InsertIdempotent | src/services/dataImport.service.ts:116-119 | Inserting the same batch a second time leaves the table unchanged |
| Pagination.TotalPages | src/services/segmentation.service.ts:197 | The page count is the ceiling of total over limit: the fewest pages of `limit` rows that hold all rows |
| Pagination.PageOf | src/services/segmentation.service.ts:58-61 | A page skips `(page-1)*limit` rows and takes at most `limit`. Entry i is row skip+i. The page holds exactly min(limit, rows left after the skip) rows, so it is full when enough rows remain and a partial last page holds every remaining row |
| Pagination.NewestFirst | src/services/segmentation.service.ts:186 | A table kept in creation order is listed latest first: entry j is row n-1-j |
| Pagination.List | src/services/segmentation.service.ts:180-199 | A listing carries the page, limit, total, the page count (exactly the ceiling of total over limit) and the page's rows |
| Pagination.ListNewestFirst | src/services/segmentation.service.ts:180-199 | The segment list (and, identically, the refresh-log list of src/services/dataImport.service.ts:122-142) pages the table latest first with skip = (page-1)*limit. The total is the table size and the page count is exactly the ceiling of total over limit. A page holds exactly min(limit, rows left after the skip) rows |
| Segmentation.GetSegments | src/services/segmentation.service.ts:180-199 | The segment list: the page and limit are echoed, the total is the table size and the page count is the ceiling of total over limit. A page holds exactly min(limit, segments left after the skip) segments. Entry j is the segment created (skip+j)-th latest |
| DataImport.GetRefreshLogs | src/services/dataImport.service.ts:122-142 | The log list: the page and limit are echoed, the total is the table size and the page count is the ceiling of total over limit. A page holds exactly min(limit, rows left after the skip) rows. Entry j is the run started (skip+j)-th latest |
| Pagination.PageNonEmptyIff | src/services/segmentation.service.ts:180-197 | A page holds rows exactly when its number is at most the page count |
| Pagination.PageLocates | src/services/segmentation.service.ts:181-185 | Row j is entry j mod limit of page j div limit + 1, so the pages cover the rows in order without gap or overlap |
| Pagination.TwelveRowsInPagesOfFive | src/services/segmentation.service.ts:197 | Twelve rows in pages of five give three pages, and the third holds two rows |
| Segmentation.FilterOrders | src/services/segmentation.service.ts:150-161 | An order survives the row filter exactly when three things hold: its date is in the inclusive range (an absent end is open), its product's category is listed (or no categories are given), and its region is listed (or no regions are given) |
| Segmentation.NoOrdersNoRevenue | src/services/segmentation.service.ts:162-165 | A customer key with no orders has zero revenue |
| Segmentation.GroupBy | src/services/segmentation.service.ts:149-165 | A key has a group exactly when some order carries it. The group's count and sum equal the reference count and sum of `totalAmount` |
| Segmentation.SurvivingKeys | src/services/segmentation.service.ts:119-146 | A key survives exactly when it has an order passing the row filter and its count and revenue meet the having clause. A lower bound applies only when it is set and positive; an upper bound applies whenever it is set |
| Segmentation.ResolveFrom | src/services/segmentation.service.ts:170-175 | Returns the table positions, in increasing order, of exactly the customers whose key is among the surviving keys |
| Segmentation.FindMatchingCustomerIds | src/services/segmentation.service.ts:116-178 | The ids returned are exactly the ids of customers whose key qualifies. They are in range and strictly increasing, so none repeats |
| Segmentation.DatedOrdersOf | src/services/segmentation.service.ts:48-51 | A customer's orders for enrichment are exactly its orders in the date range, with no category or region filter |
| Segmentation.Average | src/services/segmentation.service.ts:92 | The average times the count is the total when there are orders; it is 0 otherwise |
| Segmentation.OrderCategories | src/services/segmentation.service.ts:95-97 | A category is listed exactly when some order's product has it |
| Segmentation.Distinct | src/services/segmentation.service.ts:93-99 | The set spread keeps exactly the values of the list, each once |
| Segmentation.Metrics | src/services/segmentation.service.ts:86-99 | The metrics over a list of orders: the count is its length, the total its `totalAmount` sum, the average zero-safe, and no category is listed twice |
| Segmentation.Enrich | src/services/segmentation.service.ts:62-108 | An enriched customer keeps its id and record and carries exactly its orders in the date range. Its order count is their number and its total spent their sum. The average is total spent over order count, or 0 when there are no orders. No category is listed twice |
| Segmentation.FindSegment | src/services/segmentation.service.ts:37-39 | The lookup finds a segment carrying the id, or finds none when no segment has that id |
| Segmentation.EnrichAll | src/services/segmentation.service.ts:85 | Enrichment maps each id of the page to its enriched customer, in order |
| Segmentation.GetCustomersBySegment | src/services/segmentation.service.ts:32-114 | An unknown segment id fails with "Segment not found", and only then. Otherwise the total is the number of matches. The page holds exactly min(limit, matches left after the skip) customers, so every match appears on its page. Entry j is the enrichment of match skip+j |
| Segmentation.CreateSegment | src/services/segmentation.service.ts:18-30 | A created segment is found under its new id with the given fields and creation time. Every other id finds what it found before |
| Segmentation.CreateKeepsOrder | src/services/segmentation.service.ts:23-29 | A segment created no earlier than the last keeps the table in creation order |
| Segmentation.SegmentsListedNewestFirst | src/services/segmentation.service.ts:186 | On every page, creation times never increase from one entry to the next |
| Segmentation.CreatedSegmentListedFirst | src/services/segmentation.service.ts:180-187 | A segment just created heads the first page |
| SegmentationProperties.CountPositiveIff | src/services/segmentation.service.ts:149-150 | A key has a non-zero order count exactly when some order carries it |
| SegmentationProperties.NoCriteriaKeepsAllOrders | src/services/segmentation.service.ts:124-132 | With no criteria the row filter keeps every order |
| SegmentationProperties.EmptyCriteriaMatchesBuyers | src/services/segmentation.service.ts:119-128 | With empty criteria, a customer matches exactly when its key occurs on at least one order; a customer with no orders never matches |
| SegmentationProperties.SameRowFilterSameOrders | src/services/segmentation.service.ts:150-161 | The row filter depends only on dates, categories and regions |
| SegmentationProperties.BoundsMonotone | src/services/segmentation.service.ts:135-146 | Tightening only the count and revenue bounds never adds a customer |
| SegmentationProperties.NarrowerRowsPass | src/services/segmentation.service.ts:150-161 | An order that passes a narrower row filter passes the wider one |
| SegmentationProperties.NarrowerRowsSmallerAggregates | src/services/segmentation.service.ts:150-165 | A narrower row filter never raises a key's count. It never raises its revenue when amounts are non-negative |
| SegmentationProperties.RowsMonotone | src/services/segmentation.service.ts:135-166 | Narrowing the row filter and tightening lower bounds never adds a customer, when the wider criteria set no upper bound and amounts are non-negative |
| SegmentationProperties.UpperBoundLetsNarrowerDatesMatchMore | src/services/segmentation.service.ts:139 | With `maxPurchases = 1`, a customer with two orders is excluded. Adding a start date that drops one order makes it match |
| SegmentationProperties.NothingPassesNothingKept | src/services/segmentation.service.ts:150-161 | When no order passes the row filter, none is kept |
| SegmentationProperties.MixedStoreElectronicsOrders | src/services/segmentation.service.ts:153-157 | In the example store, the Electronics filter keeps only the one Electronics order |
| SegmentationProperties.MixedStoreAllOrders | src/services/segmentation.service.ts:149-152 | In the example store, with no category filter the customer has at least two orders |
| SegmentationProperties.CategoryFilterAppliesBeforeCount | src/services/segmentation.service.ts:136-157 | `minPurchases = 2` with one category counts only that category's orders: the customer with one Electronics order does not match, but matches without the category filter |
| SegmentationProperties.FilterOrdersMultiplicity | src/services/segmentation.service.ts:149-161 | The row filter keeps each passing order as many times as it occurs and drops every other order, so the grouped counts are exact |
| SegmentationProperties.DatedOrdersMultiplicity | src/services/segmentation.service.ts:62-66 | A customer's dated orders keep each of its in-range orders as many times as it occurs and no other order, so `totalOrders` is exact |
| SegmentationProperties.DateOnly | src/services/segmentation.service.ts:46-51 | Criteria reduced to their date range keep that range and drop the category and region filters |
| SegmentationProperties.DatedOrdersAggregate | src/services/segmentation.service.ts:63-66 | The orders used for enrichment are counted and summed exactly as the date-only row filter would group them |
| SegmentationProperties.EnrichUsesDateFilterOnly | src/services/segmentation.service.ts:85-91 | The enriched order count and total spent are the count and sum of the customer's orders in the date range only |
| SegmentationProperties.EnrichedMetricsMeetBounds | src/services/segmentation.service.ts:85-92 | Without category or region filters, a matched customer's enriched count and total meet the segment's bounds |
| SegmentationProperties.EnrichedCategoriesExact | src/services/segmentation.service.ts:93-99 | The enriched categories are exactly the categories of the customer's date-filtered orders |
| SegmentationProperties.EveryDatedOrderHasCategory | src/services/segmentation.service.ts:93-99 | In a consistent store, every date-filtered order contributes its product's category |
| DataImport.DeriveCustomers | src/services/dataImport.service.ts:63-68 | One customer per row, in row order, from the row's customer columns |
| DataImport.DeriveProducts | src/services/dataImport.service.ts:76-81 | One product per row, in row order, from the row's product columns |
| DataImport.DeriveOrder | src/services/dataImport.service.ts:89-113 | A row yields an order exactly when its date parses. A failure carries "Invalid date format for order" plus the row's Order ID. Every field comes from its cell: keys, region and payment method as text, the quantity and prices through the number parsers, the date through the date parser. The amount is quantity times unit price times (1 - discount) plus shipping |
| DataImport.DeriveOrders | src/services/dataImport.service.ts:89-114 | A batch yields orders exactly when every date parses. Otherwise the error names the first bad row's Order ID. On success, order j is row j's order |
| DataImport.ProcessBatch | src/services/dataImport.service.ts:61-120 | A batch succeeds exactly when every date parses, and a failure names the first bad row. Existing rows of every table stay in place |
| DataImport.NumChunks | src/services/dataImport.service.ts:29-30 | The number of chunks is the ceiling of n over 1000 |
| DataImport.NumChunksUnique | src/services/dataImport.service.ts:29-30 | The chunk count is the only count meeting both ceiling bounds |
| DataImport.ChunkStep | src/services/dataImport.service.ts:30-31 | From a chunk boundary short of n, the next chunk of min(1000, n - i) rows reaches the next boundary min(1000(k+1), n) |
| DataImport.ChunkBoundaryMonotone | src/services/dataImport.service.ts:30-37 | Chunk boundaries never decrease |
| DataImport.ChunkCount | src/services/dataImport.service.ts:30 | The loop stops after exactly the chunk count |
| DataImport.ErrorMessage | src/services/dataImport.service.ts:53 | The logged error is the Error's message, or "Unknown error" for a thrown value that is not an Error |
| DataImport.FinishLog | src/services/dataImport.service.ts:41-56 | Finalizing leaves a terminal, well-formed log row: completed at the given time, with an error exactly when it failed. It succeeds exactly when nothing was thrown, and the error text is the thrown value's message |
| DataImport.RunTransaction | src/services/dataImport.service.ts:28-39 | The loop's outcome is the chunk-by-chunk run. On success it writes one progress value per chunk: after chunk k the value is min(1000(k+1), n). The values never decrease and the last one is n |
| DataImport.ProcessCsv | src/services/dataImport.service.ts:12-59 | A run first writes its log row as `started` with `recordsProcessed` 0 and its start time. That row is appended to the log table, and the run then finalizes it exactly once, with one terminal status and its completion time. On success the store is the committed run and `recordsProcessed` is the row count. On a decoding failure or a bad date the store is unchanged, `recordsProcessed` stays 0, the row is `failed` with the message, and the error is re-thrown |
| DataImport.LatestRunListedFirst | src/services/dataImport.service.ts:125-129 | The run last started heads the first page of the log list |
| ImportProperties.DeriveCustomersConcat | src/services/dataImport.service.ts:63-68 | Deriving customers commutes with splitting the rows |
| ImportProperties.DeriveProductsConcat | src/services/dataImport.service.ts:76-81 | Deriving products commutes with splitting the rows |
| ImportProperties.DeriveOrdersConcat | src/services/dataImport.service.ts:89-114 | Deriving the orders of two parts fails with the first part's error, else the second's, else yields both order lists in turn |
| ImportProperties.BatchConcat | src/services/dataImport.service.ts:61-120 | Processing a batch in two parts gives the same outcome as processing it whole |
| ImportProperties.EmptyBatch | src/services/dataImport.service.ts:61-120 | An empty batch changes nothing |
| ImportProperties.ChunkingInvisible | src/services/dataImport.service.ts:28-39 | Because every chunk runs in one transaction, the run commits what one batch of all rows would, and fails exactly when it would |
| ImportProperties.ImportFailsOnFirstBadDate | src/services/dataImport.service.ts:95-99 | A run fails exactly when some row's date does not parse. Its error then names the first such row's Order ID |
| ImportProperties.ImportIdempotent | src/services/dataImport.service.ts:116-119 | Importing the same rows again after a successful run leaves the store unchanged |
| ImportProperties.CustomerKeysOfRows | src/services/dataImport.service.ts:63-68 | The derived customers' keys are the rows' Customer IDs |
| ImportProperties.ProductKeysOfRows | src/services/dataImport.service.ts:76-81 | The derived products' keys are the rows' Product IDs |
| ImportProperties.OrderKeysOfRows | src/services/dataImport.service.ts:101-104 | The derived orders' keys are the rows' Order IDs |
| ImportProperties.BatchAddsOnlyNewKeys | src/services/dataImport.service.ts:70-86 | After a successful batch, each table's keys are the old keys plus the keys the rows mention |
| ImportProperties.ImportAddsOnlyNewKeys | src/services/dataImport.service.ts:28-39 | After a successful run, stored rows stay in place and each table's keys grow by exactly the keys the rows mention |
| ImportProperties.OrdersFindTheirReferences | src/services/dataImport.service.ts:62-119 | Customers and products are inserted before orders. When the orders go in, every customer and product they reference is already stored |
| ImportProperties.BatchPreservesIntegrity | src/services/dataImport.service.ts:61-120 | A batch keeps business keys unique, keeps every order's customer and product present, and keeps the amount rule on every order |
| ImportProperties.ImportPreservesIntegrity | src/services/dataImport.service.ts:28-39 | A successful run keeps unique keys, foreign keys and the amount rule |
| ImportProperties.ChunksPartition | src/services/dataImport.service.ts:29-31 | Chunk k is rows [1000k, min(1000k+1000, n)). Every chunk but the last holds 1000 rows, and the boundaries run from 0 to n |

## Left out

- Reading the file and `csv-parse` (src/services/dataImport.service.ts:22-26) are an external decoder. `ProcessCsv` takes the decoder's outcome as a parameter. A decoding failure is modelled as a thrown value.
- Clocks (`new Date()`, `createdAt`): the times are parameters. Database-generated ids (`uuid`) are a parameter as well, required to be fresh.
- `parseInt` and `parseFloat` are total function parameters returning `int` and `real`. NaN and IEEE-754 rounding are not modelled, because the code never checks them. Date parsing is a partial function parameter, because the code checks it.
- A CSV column missing from a row reads as the empty string. The source would pass `undefined` to the database, which may reject it; that rejection is not modelled.
- The database may refuse an insert (a null column, a dangling foreign key). These store errors are not modelled; in the model only the invalid-date error can fail a batch.
- DataImport.ProcessCsv: store errors on the log row itself (src/services/dataImport.service.ts:13-19, 41-47, 49-56) are not modelled. If the creation at 13-19 fails, the run throws before any log row exists. If the success update at 41-47 fails, it does so after the transaction has committed, so the catch at 48-57 marks the row `failed` while the imported rows stay committed and `recordsProcessed` is the row count. If the catch's own update fails, the row stays `started` and that update's error propagates instead of the original one. The model always writes the log row successfully.
- DataImport.ProcessCsv: the transaction time-out is not modelled. The chunk loop runs in one interactive `prisma.$transaction` without options (src/services/dataImport.service.ts:28), which Prisma cancels after its default time-out of 5 seconds. A long import with no bad date is then rolled back and logged `failed`, whereas the contract says such a run succeeds.
- Prisma query syntax, the exact `having` key names and `Promise.all` concurrency: the model states the intended predicate semantics.
- Segmentation.GetCustomersBySegment: lists matched customers in table order. The source's `findMany` has no `orderBy`, so the order of its pages is whatever the database returns.
- Segmentation.SegmentsListedNewestFirst: ties in `createdAt` are listed latest-inserted first. The database orders ties arbitrarily.
- Pagination.ListNewestFirst: lists a table latest-inserted first. This stands in for `createdAt desc`; for segments, `SegmentsListedNewestFirst` connects the two when creation times follow insertion order.
- Pagination.PageOf: requires `page >= 1` and `limit >= 1`, and so does every listing built on it. The controllers replace only a missing, zero or unparseable value by the default (`parseInt(...) || 10`), so negative values reach the services. A negative limit on page 1 gives skip 0 and a negative `take`, which Prisma reads as counting from the end, and `Math.ceil(total / limit)` is then zero or negative. A negative page with a positive limit gives a negative skip, which the database rejects. Neither case is modelled; both are inputs the listings were not written for.
- Criteria dates are optional integers. The source's truthiness test on `startDate` and `endDate` is modelled as "set or absent".
- SegmentationProperties.RowsMonotone: narrowing the row filter keeps monotonicity only without upper bounds and with non-negative amounts. Narrowing can drop orders and bring a count under `maxPurchases`; `UpperBoundLetsNarrowerDatesMatchMore` gives an example.
- Segmentation.Enrich: the order of the distinct categories (first occurrence in table order) is not promised by the source's query and is not stated in the contract. The carried orders are whole `Order` values; the source selects only `totalAmount`, `quantity` and the product's category from each.
- Controllers, routes, validation and server start-up are HTTP plumbing.
- DataImport.ProcessCsv: the in-progress states of the log row are not modelled as table states. The run is one atomic step, so the model's log table never holds the `started` row (or, between the commit at src/services/dataImport.service.ts:39 and the success update at 41-47, the `started` row with the full count). A concurrent reader of `getRefreshLogs` can see those rows in the source. The model returns the created row as `created` and states that the final row is its finalization.
- An orphaned run, whose process is killed while its log row is still `started`, is outside the model: `ProcessCsv` always finalizes.

=== FILE: data_import.dfy ===
/** The batch import pipeline: decoded rows are processed in chunks of 1000 inside
    one transaction, each chunk deriving and inserting customers, products and
    orders with skip-on-duplicate semantics, while a refresh log records the run. */
module DataImport {
  import opened Wrappers
  import opened Tables
  import SkipInsert
  import Pagination

  /** A decoded CSV row: column name to cell text. */
  type CsvRow = map<string, string>

  const BatchSize: nat := 1000

  /** The cell of a column; a column absent from the header reads as "". */
  function Field(row: CsvRow, column: string): string
  {
    if column in row then row[column] else ""
  }

  /** The text-to-value conversions the import relies on. Number parsing is total
      here; date parsing may fail. */
  datatype Parsers = Parsers(parseInt: string -> int, parseFloat: string -> real, parseDate: string -> Option<int>)

  function DeriveCustomer(row: CsvRow): Customer
  {
    Customer(Field(row, "Customer ID"), Field(row, "Customer Name"), Field(row, "Customer Email"), Field(row, "Customer Address"))
  }

  function DeriveProduct(p: Parsers, row: CsvRow): Product
  {
    Product(Field(row, "Product ID"), Field(row, "Product Name"), Field(row, "Category"), p.parseFloat(Field(row, "Unit Price")))
  }

  function DeriveCustomers(rows: seq<CsvRow>): (r: seq<Customer>)
    ensures |r| == |rows|
    ensures forall j | 0 <= j < |rows| :: r[j] == DeriveCustomer(rows[j])
  {
    if |rows| == 0 then [] else [DeriveCustomer(rows[0])] + DeriveCustomers(rows[1..])
  }

  function DeriveProducts(p: Parsers, rows: seq<CsvRow>): (r: seq<Product>)
    ensures |r| == |rows|
    ensures forall j | 0 <= j < |rows| :: r[j] == DeriveProduct(p, rows[j])
  {
    if |rows| == 0 then [] else [DeriveProduct(p, rows[0])] + DeriveProducts(p, rows[1..])
  }

  /** The stored amount of an order: quantity times unit price, less the
      discount fraction, plus shipping. */
  predicate AmountRule(o: Order)
  {
    o.totalAmount == (o.quantity as real) * o.unitPrice * (1.0 - o.discount) + o.shippingCost
  }

  predicate DateValid(p: Parsers, row: CsvRow)
  {
    p.parseDate(Field(row, "Date of Sale")).Some?
  }

  /** Row `j` is the first row whose date does not parse. */
  predicate FirstInvalid(p: Parsers, rows: seq<CsvRow>, j: int)
  {
    && 0 <= j < |rows|
    && !DateValid(p, rows[j])
    && forall j' | 0 <= j' < j :: DateValid(p, rows[j'])
  }

  function InvalidDateMessage(orderId: string): string
  {
    "Invalid date format for order " + orderId
  }

  /** The order a row describes. The amount is computed here, once. */
  function DeriveOrder(p: Parsers, row: CsvRow): (r: Result<Order, string>)
    ensures r.Success? <==> DateValid(p, row)
    ensures r.Failure? ==> r.error == InvalidDateMessage(Field(row, "Order ID"))
    ensures r.Success? ==> AmountRule(r.value)
    ensures r.Success? ==>
      && r.value.orderId == Field(row, "Order ID")
      && r.value.customerId == Field(row, "Customer ID")
      && r.value.productId == Field(row, "Product ID")
      && r.value.region == Field(row, "Region")
      && r.value.dateOfSale == p.parseDate(Field(row, "Date of Sale")).value
      && r.value.quantity == p.parseInt(Field(row, "Quantity Sold"))
      && r.value.unitPrice == p.parseFloat(Field(row, "Unit Price"))
      && r.value.discount == p.parseFloat(Field(row, "Discount"))
      && r.value.shippingCost == p.parseFloat(Field(row, "Shipping Cost"))
      && r.value.paymentMethod == Field(row, "Payment Method")
  {
    var quantity := p.parseInt(Field(row, "Quantity Sold"));
    var unitPrice := p.parseFloat(Field(row, "Unit Price"));
    var discount := p.parseFloat(Field(row, "Discount"));
    var shippingCost := p.parseFloat(Field(row, "Shipping Cost"));
    var totalAmount := (quantity as real) * unitPrice * (1.0 - discount) + shippingCost;
    match p.parseDate(Field(row, "Date of Sale"))
    case None => Failure(InvalidDateMessage(Field(row, "Order ID")))
    case Some(dateOfSale) =>
      Success(Order(Field(row, "Order ID"), Field(row, "Customer ID"), Field(row, "Product ID"), Field(row, "Region"),
        dateOfSale, quantity, unitPrice, discount, shippingCost, Field(row, "Payment Method"), totalAmount))
  }

  /** The orders of a batch, or the error of its first row with a bad date. */
  function DeriveOrders(p: Parsers, rows: seq<CsvRow>): (r: Result<seq<Order>, string>)
    ensures r.Success? <==> forall j | 0 <= j < |rows| :: DateValid(p, rows[j])
    ensures r.Failure? ==> exists j :: FirstInvalid(p, rows, j) && r.error == InvalidDateMessage(Field(rows[j], "Order ID"))
    ensures r.Success? ==> |r.value| == |rows|
    ensures r.Success? ==> forall j | 0 <= j < |rows| :: DeriveOrder(p, rows[j]) == Success(r.value[j])
  {
    if |rows| == 0 then Success([])
    else
      match DeriveOrder(p, rows[0])
      case Failure(e) =>
        assert FirstInvalid(p, rows, 0);
        Failure(e)
      case Success(o) =>
        match DeriveOrders(p, rows[1..])
        case Failure(e) =>
          assert exists j :: FirstInvalid(p, rows, j) && e == InvalidDateMessage(Field(rows[j], "Order ID")) by {
            var j :| FirstInvalid(p, rows[1..], j) && e == InvalidDateMessage(Field(rows[1..][j], "Order ID"));
            assert FirstInvalid(p, rows, j + 1) by {
              forall j' | 0 <= j' < j + 1 ensures DateValid(p, rows[j']) {
                if j' > 0 { assert rows[j'] == rows[1..][j' - 1]; }
              }
            }
          }
          Failure(e)
        case Success(os) =>
          assert forall j | 0 <= j < |rows| :: DateValid(p, rows[j]) by {
            forall j | 0 <= j < |rows| ensures DateValid(p, rows[j]) {
              if j > 0 { assert rows[j] == rows[1..][j - 1]; }
            }
          }
          Success([o] + os)
  }

  /** One chunk's unit of work: customers first, then products, then orders, each
      a skip-duplicate insert. A bad date fails the chunk before its orders are
      inserted. Existing rows of every table are kept as they are. */
  function ProcessBatch(p: Parsers, s: Store, batch: seq<CsvRow>): (r: Result<Store, string>)
    ensures r.Success? <==> forall j | 0 <= j < |batch| :: DateValid(p, batch[j])
    ensures r.Failure? ==> exists j :: FirstInvalid(p, batch, j) && r.error == InvalidDateMessage(Field(batch[j], "Order ID"))
    ensures r.Success? ==>
      && |r.value.customers| >= |s.customers| && |r.value.products| >= |s.products| && |r.value.orders| >= |s.orders|
      && r.value.customers[..|s.customers|] == s.customers
      && r.value.products[..|s.products|] == s.products
      && r.value.orders[..|s.orders|] == s.orders
  {
    var customers := SkipInsert.Insert(s.customers, DeriveCustomers(batch), CustomerKey);
    var products := SkipInsert.Insert(s.products, DeriveProducts(p, batch), ProductKey);
    var derived := DeriveOrders(p, batch);
    if derived.Failure? then Failure(derived.error)
    else
      var orders := SkipInsert.Insert(s.orders, derived.value, OrderKey);
      Success(Store(customers, products, orders))
  }

  /** The unit of work a transaction runs on each chunk. */
  type ChunkWork = (Store, seq<CsvRow>) -> Result<Store, string>

  /** The import's unit of work: `ProcessBatch` with the given parsers. */
  function BatchWork(p: Parsers): ChunkWork
  {
    (st: Store, batch: seq<CsvRow>) => ProcessBatch(p, st, batch)
  }

  /** The chunk loop as a whole, inside one transaction, from row `i` on: the
      chunk starting at `i` is rows `[i, min(i + 1000, n))`, and the first failing
      chunk fails the whole run. */
  function RunChunksFrom(work: ChunkWork, s: Store, rows: seq<CsvRow>, i: nat): Result<Store, string>
    requires i <= |rows|
    decreases |rows| - i
  {
    if i == |rows| then Success(s)
    else
      var m := Min(BatchSize, |rows| - i);
      var first := work(s, rows[i..i + m]);
      if first.Failure? then Failure(first.error)
      else RunChunksFrom(work, first.value, rows, i + m)
  }

  /** The import of `rows` into `s` as one transaction. */
  function RunChunks(p: Parsers, s: Store, rows: seq<CsvRow>): Result<Store, string>
  {
    RunChunksFrom(BatchWork(p), s, rows, 0)
  }

  /** The number of chunks of `n` rows: the ceiling of `n / 1000`. */
  function NumChunks(n: nat): (r: nat)
    ensures n <= r * BatchSize
    ensures r == 0 || (r - 1) * BatchSize < n
  {
    (n + BatchSize - 1) / BatchSize
  }

  /** The two bounds of `NumChunks` pin it down. */
  lemma NumChunksUnique(n: nat, k: nat)
    requires n <= k * BatchSize
    requires k == 0 || (k - 1) * BatchSize < n
    ensures k == NumChunks(n)
  {
  }

  datatype Status = Started | Succeeded | Failed

  /** One row of the refresh log. */
  datatype RefreshLog = RefreshLog(
    status: Status,
    recordsProcessed: nat,
    startedAt: int,
    completedAt: Option<int>,
    error: Option<string>)

  /** A value the run may throw: an Error object with its message, or anything else. */
  datatype Thrown = ErrorObject(message: string) | NonError

  /** The text recorded for a thrown value. */
  function ErrorMessage(t: Thrown): (m: string)
    ensures t.ErrorObject? ==> m == t.message
    ensures t.NonError? ==> m == "Unknown error"
  {
    match t
    case ErrorObject(m) => m
    case NonError => "Unknown error"
  }

  /** The persistent state the import touches: the store and the log table. */
  datatype Db = Db(store: Store, logs: seq<RefreshLog>)

  /** A log row is consistent with its status: only a terminal row has a
      completion time, and only a failed row has an error. */
  predicate LogWellFormed(l: RefreshLog)
  {
    && (l.status == Started <==> l.completedAt.None?)
    && (l.status == Failed <==> l.error.Some?)
  }

  /** The run's terminal update of its log row. */
  function FinishLog(log: RefreshLog, outcome: Option<Thrown>, completedAt: int): (r: RefreshLog)
    requires log.status == Started && log.error.None?
    ensures LogWellFormed(r) && r.status != Started
    ensures r.recordsProcessed == log.recordsProcessed && r.startedAt == log.startedAt
    ensures r.completedAt == Some(completedAt)
    ensures r.status == Succeeded <==> outcome.None?
    ensures outcome.Some? ==> r.error == Some(ErrorMessage(outcome.value))
  {
    match outcome
    case None => log.(status := Succeeded, completedAt := Some(completedAt))
    case Some(t) => log.(status := Failed, error := Some(ErrorMessage(t)), completedAt := Some(completedAt))
  }

  /** The row count processed once chunks `0..k-1` are done: `min(1000 k, n)`. */
  function ChunkBoundary(k: nat, n: nat): nat
  {
    Min(BatchSize * k, n)
  }

  /** Arithmetic of one chunk step: from a boundary short of `n`, the next chunk
      of `min(1000, n - i)` rows reaches the next boundary. */
  lemma ChunkStep(k: nat, n: nat, i: nat)
    requires i == ChunkBoundary(k, n) && i < n
    ensures i + Min(BatchSize, n - i) == ChunkBoundary(k + 1, n)
  {
  }

  /** Chunk boundaries never decrease. */
  lemma ChunkBoundaryMonotone(k: nat, k': nat, n: nat)
    requires k <= k'
    ensures ChunkBoundary(k, n) <= ChunkBoundary(k', n)
  {
  }

  /** Once the boundary of `k` chunks reaches `n` and the chunk before did not,
      `k` is the chunk count. */
  lemma ChunkCount(k: nat, n: nat)
    requires ChunkBoundary(k, n) == n
    requires k == 0 || ChunkBoundary(k - 1, n) < n
    ensures k == NumChunks(n)
  {
    NumChunksUnique(n, k);
  }

  /** The transaction body: the chunk loop over consecutive chunks of 1000 rows.
      It yields the store the transaction would commit, or the first chunk's
      error, together with the `recordsProcessed` values it writes, one per
      completed chunk. */
  method RunTransaction(work: ChunkWork, s: Store, records: seq<CsvRow>) returns (outcome: Result<Store, string>, progress: seq<nat>)
    ensures outcome == RunChunksFrom(work, s, records, 0)
    ensures outcome.Success? ==>
      && |progress| == NumChunks(|records|)
      && (forall k | 0 <= k < |progress| :: progress[k] == ChunkBoundary(k + 1, |records|))
      && (forall k, k' | 0 <= k <= k' < |progress| :: progress[k] <= progress[k'])
      && (|progress| > 0 ==> progress[|progress| - 1] == |records|)
  {
    progress := [];
    var txStore := s;
    var i := 0;
    while i < |records|
      invariant 0 <= i <= |records|
      invariant i == ChunkBoundary(|progress|, |records|)
      invariant forall k | 0 <= k < |progress| :: progress[k] == ChunkBoundary(k + 1, |records|)
      invariant |progress| == 0 || ChunkBoundary(|progress| - 1, |records|) < |records|
      invariant RunChunksFrom(work, s, records, 0) == RunChunksFrom(work, txStore, records, i)
      decreases |records| - i
    {
      var m := Min(BatchSize, |records| - i);
      var r := work(txStore, records[i..i + m]);
      if r.Failure? {
        outcome := Failure(r.error);
        return;
      }
      ChunkStep(|progress|, |records|, i);
      txStore := r.value;
      progress := progress + [i + m];
      i := i + m;
    }
    ChunkCount(|progress|, |records|);
    forall k, k' | 0 <= k <= k' < |progress| ensures progress[k] <= progress[k'] {
      ChunkBoundaryMonotone(k + 1, k' + 1, |records|);
    }
    outcome := Success(txStore);
  }

  /** One import run. `decoded` is the outcome of reading and decoding the file;
      `startedAt` and `completedAt` are the clock readings. The run appends its log
      row, processes the chunks in one transaction, and finalizes the log exactly
      once. On failure the transaction is rolled back, so the store and the
      logged progress are as before the run, and the error is re-thrown.
      `created` is the row as first written, which stays in the log table for
      the whole run; `progress` is the sequence of `recordsProcessed` values the
      chunk loop writes. */
  method ProcessCsv(p: Parsers, db: Db, decoded: Result<seq<CsvRow>, Thrown>, startedAt: int, completedAt: int)
    returns (db': Db, result: Result<RefreshLog, Thrown>, created: RefreshLog, progress: seq<nat>)
    ensures created.status == Started && created.recordsProcessed == 0 && created.startedAt == startedAt
    ensures LogWellFormed(created)
    ensures |db'.logs| == |db.logs| + 1 && db'.logs[..|db.logs|] == db.logs
    ensures result.Success? ==>
      && decoded.Success?
      && db'.logs[|db.logs|] == FinishLog(created.(recordsProcessed := |decoded.value|), None, completedAt)
    ensures result.Failure? ==>
      db'.logs[|db.logs|] == FinishLog(created, Some(result.error), completedAt)
    ensures var log := db'.logs[|db.logs|];
      && LogWellFormed(log) && log.status != Started
      && log.startedAt == startedAt && log.completedAt == Some(completedAt)
    ensures result.Success? <==> decoded.Success? && RunChunks(p, db.store, decoded.value).Success?
    ensures result.Success? ==>
      && result.value == db'.logs[|db.logs|]
      && result.value.status == Succeeded
      && result.value.recordsProcessed == |decoded.value|
      && RunChunks(p, db.store, decoded.value) == Success(db'.store)
    ensures result.Failure? ==>
      && db'.store == db.store
      && db'.logs[|db.logs|].status == Failed
      && db'.logs[|db.logs|].recordsProcessed == 0
      && db'.logs[|db.logs|].error == Some(ErrorMessage(result.error))
    ensures decoded.Failure? ==> result == Failure(decoded.error)
    ensures decoded.Success? && RunChunks(p, db.store, decoded.value).Failure? ==>
      result == Failure(ErrorObject(RunChunks(p, db.store, decoded.value).error))
    ensures result.Success? ==>
      && |progress| == NumChunks(|decoded.value|)
      && (forall k | 0 <= k < |progress| :: progress[k] == ChunkBoundary(k + 1, |decoded.value|))
      && (forall k, k' | 0 <= k <= k' < |progress| :: progress[k] <= progress[k'])
      && (|progress| > 0 ==> progress[|progress| - 1] == |decoded.value|)
  {
    var log := RefreshLog(Started, 0, startedAt, None, None);
    created := log;
    var logs := db.logs + [log];
    progress := [];
    if decoded.Failure? {
      var finished := FinishLog(log, Some(decoded.error), completedAt);
      db' := Db(db.store, logs[|db.logs| := finished]);
      result := Failure(decoded.error);
      return;
    }
    var outcome;
    outcome, progress := RunTransaction(BatchWork(p), db.store, decoded.value);
    if outcome.Failure? {
      // Rollback: neither the inserts nor the progress updates survive.
      var finished := FinishLog(log, Some(ErrorObject(outcome.error)), completedAt);
      db' := Db(db.store, logs[|db.logs| := finished]);
      result := Failure(ErrorObject(outcome.error));
    } else {
      // Commit: the last progress update wrote the row count.
      var committed := log.(recordsProcessed := if |progress| == 0 then 0 else progress[|progress| - 1]);
      var finished := FinishLog(committed, None, completedAt);
      db' := Db(outcome.value, logs[|db.logs| := finished]);
      result := Success(finished);
    }
  }

  /** One page of the refresh-log list, newest first, with its page count. */
  function GetRefreshLogs(logs: seq<RefreshLog>, page: int, limit: int): (r: Pagination.Listing<RefreshLog>)
    requires page >= 1 && limit >= 1
    ensures r.meta.page == page && r.meta.limit == limit
    ensures r.meta.total == |logs| && r.meta.totalPages == Pagination.TotalPages(|logs|, limit)
    ensures |r.data| == Min(limit, |logs| - Min(Pagination.Skip(page, limit), |logs|))
    ensures forall j | 0 <= j < |r.data| ::
      && Pagination.Skip(page, limit) + j < |logs|
      && r.data[j] == logs[|logs| - 1 - (Pagination.Skip(page, limit) + j)]
  {
    Pagination.ListNewestFirst(logs, page, limit)
  }

  /** The run last started heads the first page of the refresh-log list. */
  lemma LatestRunListedFirst(logs: seq<RefreshLog>, latest: RefreshLog, limit: int)
    requires limit >= 1
    ensures var d := GetRefreshLogs(logs + [latest], 1, limit).data;
      |d| > 0 && d[0] == latest
  {
    Pagination.PageNonEmptyIff(Pagination.NewestFirst(logs + [latest]), 1, limit);
  }
}

=== FILE: import_properties.dfy ===
/** Properties of the import pipeline. */
module ImportProperties {
  import opened Wrappers
  import opened Tables
  import SkipInsert
  import opened DataImport

  /** Continues a run with `rows` after the outcome `first`. */
  function AndThen(p: Parsers, first: Result<Store, string>, rows: seq<CsvRow>): Result<Store, string>
  {
    if first.Failure? then Failure(first.error) else ProcessBatch(p, first.value, rows)
  }

  lemma DeriveCustomersConcat(a: seq<CsvRow>, b: seq<CsvRow>)
    ensures DeriveCustomers(a + b) == DeriveCustomers(a) + DeriveCustomers(b)
  {
  }

  lemma DeriveProductsConcat(p: Parsers, a: seq<CsvRow>, b: seq<CsvRow>)
    ensures DeriveProducts(p, a + b) == DeriveProducts(p, a) + DeriveProducts(p, b)
  {
  }

  /** Deriving the orders of `a + b` fails with `a`'s error if `a` fails,
      otherwise with `b`'s, and otherwise yields both order lists in turn. */
  lemma {:induction false} DeriveOrdersConcat(p: Parsers, a: seq<CsvRow>, b: seq<CsvRow>)
    ensures var da := DeriveOrders(p, a);
      var db := DeriveOrders(p, b);
      DeriveOrders(p, a + b) ==
        if da.Failure? then Failure(da.error)
        else if db.Failure? then Failure(db.error)
        else Success(da.value + db.value)
    decreases |a|
  {
    if |a| == 0 {
      assert a + b == b;
      if DeriveOrders(p, b).Success? {
        assert [] + DeriveOrders(p, b).value == DeriveOrders(p, b).value;
      }
    } else {
      assert (a + b)[0] == a[0];
      assert (a + b)[1..] == a[1..] + b;
      DeriveOrdersConcat(p, a[1..], b);
      var d0 := DeriveOrder(p, a[0]);
      if d0.Success? && DeriveOrders(p, a[1..]).Success? && DeriveOrders(p, b).Success? {
        assert [d0.value] + (DeriveOrders(p, a[1..]).value + DeriveOrders(p, b).value)
          == ([d0.value] + DeriveOrders(p, a[1..]).value) + DeriveOrders(p, b).value;
      }
    }
  }

  /** Processing `a + b` as one batch is processing `a`, then `b`. */
  lemma BatchConcat(p: Parsers, s: Store, a: seq<CsvRow>, b: seq<CsvRow>)
    ensures ProcessBatch(p, s, a + b) == AndThen(p, ProcessBatch(p, s, a), b)
  {
    DeriveCustomersConcat(a, b);
    DeriveProductsConcat(p, a, b);
    DeriveOrdersConcat(p, a, b);
    SkipInsert.InsertConcat(s.customers, DeriveCustomers(a), DeriveCustomers(b), CustomerKey);
    SkipInsert.InsertConcat(s.products, DeriveProducts(p, a), DeriveProducts(p, b), ProductKey);
    var da := DeriveOrders(p, a);
    var db := DeriveOrders(p, b);
    if da.Success? && db.Success? {
      SkipInsert.InsertConcat(s.orders, da.value, db.value, OrderKey);
    }
  }

  lemma EmptyBatch(p: Parsers, s: Store)
    ensures ProcessBatch(p, s, []) == Success(s)
  {
    assert DeriveCustomers([]) == [] && DeriveProducts(p, []) == [];
  }

  /** One step of the chunk loop, for any unit of work. */
  lemma ChunkUnfold(work: ChunkWork, s: Store, rows: seq<CsvRow>, i: nat, m: nat)
    requires i < |rows| && m == Min(BatchSize, |rows| - i)
    ensures var first := work(s, rows[i..i + m]);
      RunChunksFrom(work, s, rows, i) == if first.Failure? then Failure(first.error) else RunChunksFrom(work, first.value, rows, i + m)
  {
  }

  lemma {:induction false} ChunksFromAsOneBatch(p: Parsers, s: Store, rows: seq<CsvRow>, i: nat)
    requires i <= |rows|
    ensures RunChunksFrom(BatchWork(p), s, rows, i) == ProcessBatch(p, s, rows[i..])
    decreases |rows| - i
  {
    if i == |rows| {
      assert rows[i..] == [];
      EmptyBatch(p, s);
    } else {
      var m := Min(BatchSize, |rows| - i);
      var chunk, rest := rows[i..i + m], rows[i + m..];
      assert rows[i..] == chunk + rest;
      BatchConcat(p, s, chunk, rest);
      var first := ProcessBatch(p, s, chunk);
      assert BatchWork(p)(s, chunk) == first;
      ChunkUnfold(BatchWork(p), s, rows, i, m);
      if first.Success? {
        ChunksFromAsOneBatch(p, first.value, rows, i + m);
      }
    }
  }

  /** Chunking is invisible in the outcome: because every chunk runs in the same
      transaction, the run commits what processing all rows as one batch would,
      and fails exactly when that would. */
  lemma ChunkingInvisible(p: Parsers, s: Store, rows: seq<CsvRow>)
    ensures RunChunks(p, s, rows) == ProcessBatch(p, s, rows)
  {
    ChunksFromAsOneBatch(p, s, rows, 0);
    assert rows[0..] == rows;
  }

  /** A run fails exactly when some row's date does not parse, and then with the
      message naming the first such row's order ID. */
  lemma ImportFailsOnFirstBadDate(p: Parsers, s: Store, rows: seq<CsvRow>)
    ensures RunChunks(p, s, rows).Failure? <==> exists j | 0 <= j < |rows| :: !DateValid(p, rows[j])
    ensures RunChunks(p, s, rows).Failure? ==>
      exists j :: FirstInvalid(p, rows, j) && RunChunks(p, s, rows).error == InvalidDateMessage(Field(rows[j], "Order ID"))
  {
    ChunkingInvisible(p, s, rows);
  }

  /** Importing the same rows again after a successful run changes nothing. */
  lemma ImportIdempotent(p: Parsers, s: Store, rows: seq<CsvRow>)
    requires RunChunks(p, s, rows).Success?
    ensures RunChunks(p, RunChunks(p, s, rows).value, rows) == RunChunks(p, s, rows)
  {
    var s' := RunChunks(p, s, rows).value;
    ChunkingInvisible(p, s, rows);
    ChunkingInvisible(p, s', rows);
    SkipInsert.InsertIdempotent(s.customers, DeriveCustomers(rows), CustomerKey);
    SkipInsert.InsertIdempotent(s.products, DeriveProducts(p, rows), ProductKey);
    SkipInsert.InsertIdempotent(s.orders, DeriveOrders(p, rows).value, OrderKey);
  }

  /** The business keys a set of rows mentions in one column. */
  function ColumnKeys(rows: seq<CsvRow>, column: string): set<string>
  {
    set j | 0 <= j < |rows| :: Field(rows[j], column)
  }

  lemma CustomerKeysOfRows(rows: seq<CsvRow>)
    ensures KeySet(DeriveCustomers(rows), CustomerKey) == ColumnKeys(rows, "Customer ID")
  {
    var d := DeriveCustomers(rows);
    forall k | k in ColumnKeys(rows, "Customer ID") ensures k in KeySet(d, CustomerKey) {
      var j :| 0 <= j < |rows| && Field(rows[j], "Customer ID") == k;
      assert CustomerKey(d[j]) == k;
    }
  }

  lemma ProductKeysOfRows(p: Parsers, rows: seq<CsvRow>)
    ensures KeySet(DeriveProducts(p, rows), ProductKey) == ColumnKeys(rows, "Product ID")
  {
    var d := DeriveProducts(p, rows);
    forall k | k in ColumnKeys(rows, "Product ID") ensures k in KeySet(d, ProductKey) {
      var j :| 0 <= j < |rows| && Field(rows[j], "Product ID") == k;
      assert ProductKey(d[j]) == k;
    }
  }

  lemma OrderKeysOfRows(p: Parsers, rows: seq<CsvRow>)
    requires DeriveOrders(p, rows).Success?
    ensures KeySet(DeriveOrders(p, rows).value, OrderKey) == ColumnKeys(rows, "Order ID")
  {
    var os := DeriveOrders(p, rows).value;
    forall k | k in ColumnKeys(rows, "Order ID") ensures k in KeySet(os, OrderKey) {
      var j :| 0 <= j < |rows| && Field(rows[j], "Order ID") == k;
      assert OrderKey(os[j]) == k;
    }
  }

  /** After a successful batch each table's key set grows by exactly the keys
      the rows mention. */
  lemma BatchAddsOnlyNewKeys(p: Parsers, s: Store, rows: seq<CsvRow>)
    requires ProcessBatch(p, s, rows).Success?
    ensures var s' := ProcessBatch(p, s, rows).value;
      && KeySet(s'.customers, CustomerKey) == KeySet(s.customers, CustomerKey) + ColumnKeys(rows, "Customer ID")
      && KeySet(s'.products, ProductKey) == KeySet(s.products, ProductKey) + ColumnKeys(rows, "Product ID")
      && KeySet(s'.orders, OrderKey) == KeySet(s.orders, OrderKey) + ColumnKeys(rows, "Order ID")
  {
    var s' := ProcessBatch(p, s, rows).value;
    var os := DeriveOrders(p, rows).value;
    assert s' == Store(
      SkipInsert.Insert(s.customers, DeriveCustomers(rows), CustomerKey),
      SkipInsert.Insert(s.products, DeriveProducts(p, rows), ProductKey),
      SkipInsert.Insert(s.orders, os, OrderKey));
    CustomerKeysOfRows(rows);
    ProductKeysOfRows(p, rows);
    OrderKeysOfRows(p, rows);
  }

  /** After a successful run the stored rows are kept in place and the key sets
      grow by exactly the keys the rows mention. */
  lemma ImportAddsOnlyNewKeys(p: Parsers, s: Store, rows: seq<CsvRow>)
    requires RunChunks(p, s, rows).Success?
    ensures var s' := RunChunks(p, s, rows).value;
      && |s'.customers| >= |s.customers| && s'.customers[..|s.customers|] == s.customers
      && |s'.products| >= |s.products| && s'.products[..|s.products|] == s.products
      && |s'.orders| >= |s.orders| && s'.orders[..|s.orders|] == s.orders
      && KeySet(s'.customers, CustomerKey) == KeySet(s.customers, CustomerKey) + ColumnKeys(rows, "Customer ID")
      && KeySet(s'.products, ProductKey) == KeySet(s.products, ProductKey) + ColumnKeys(rows, "Product ID")
      && KeySet(s'.orders, OrderKey) == KeySet(s.orders, OrderKey) + ColumnKeys(rows, "Order ID")
  {
    ChunkingInvisible(p, s, rows);
    BatchAddsOnlyNewKeys(p, s, rows);
  }

  /** Customers and products are inserted before orders: by the time a batch's
      orders are inserted, every customer and product they reference is stored. */
  lemma OrdersFindTheirReferences(p: Parsers, s: Store, batch: seq<CsvRow>)
    requires DeriveOrders(p, batch).Success?
    ensures var customers := SkipInsert.Insert(s.customers, DeriveCustomers(batch), CustomerKey);
      var products := SkipInsert.Insert(s.products, DeriveProducts(p, batch), ProductKey);
      var os := DeriveOrders(p, batch).value;
      forall j | 0 <= j < |os| ::
        os[j].customerId in KeySet(customers, CustomerKey) && os[j].productId in KeySet(products, ProductKey)
  {
    CustomerKeysOfRows(batch);
    ProductKeysOfRows(p, batch);
  }

  /** Every stored order's amount obeys the amount rule. */
  predicate AmountsConsistent(s: Store)
  {
    forall j | 0 <= j < |s.orders| :: AmountRule(s.orders[j])
  }

  /** A batch keeps the store's integrity constraints and the amount rule. */
  lemma BatchPreservesIntegrity(p: Parsers, s: Store, batch: seq<CsvRow>)
    requires Valid(s) && AmountsConsistent(s)
    requires ProcessBatch(p, s, batch).Success?
    ensures Valid(ProcessBatch(p, s, batch).value)
    ensures AmountsConsistent(ProcessBatch(p, s, batch).value)
  {
    var s' := ProcessBatch(p, s, batch).value;
    var os := DeriveOrders(p, batch).value;
    OrdersFindTheirReferences(p, s, batch);
    forall j | 0 <= j < |s'.orders|
      ensures s'.orders[j].customerId in KeySet(s'.customers, CustomerKey)
      ensures s'.orders[j].productId in KeySet(s'.products, ProductKey)
      ensures AmountRule(s'.orders[j])
    {
      if j < |s.orders| {
        assert s'.orders[j] == s.orders[j];
      } else {
        var o := s'.orders[j];
        assert o in os;
        var i :| 0 <= i < |os| && os[i] == o;
        assert DeriveOrder(p, batch[i]) == Success(o);
      }
    }
  }

  lemma {:induction false} ChunksFromPreserveIntegrity(p: Parsers, s: Store, rows: seq<CsvRow>, i: nat)
    requires i <= |rows|
    requires Valid(s) && AmountsConsistent(s)
    requires RunChunksFrom(BatchWork(p), s, rows, i).Success?
    ensures Valid(RunChunksFrom(BatchWork(p), s, rows, i).value)
    ensures AmountsConsistent(RunChunksFrom(BatchWork(p), s, rows, i).value)
    decreases |rows| - i
  {
    if i < |rows| {
      var m := Min(BatchSize, |rows| - i);
      var chunk := rows[i..i + m];
      ChunkUnfold(BatchWork(p), s, rows, i, m);
      assert BatchWork(p)(s, chunk) == ProcessBatch(p, s, chunk);
      BatchPreservesIntegrity(p, s, chunk);
      ChunksFromPreserveIntegrity(p, ProcessBatch(p, s, chunk).value, rows, i + m);
    }
  }

  /** A successful run keeps unique business keys, foreign keys and the amount
      rule: every stored order's `totalAmount` is quantity times unit price,
      less the discount, plus shipping. */
  lemma ImportPreservesIntegrity(p: Parsers, s: Store, rows: seq<CsvRow>)
    requires Valid(s) && AmountsConsistent(s)
    requires RunChunks(p, s, rows).Success?
    ensures Valid(RunChunks(p, s, rows).value)
    ensures AmountsConsistent(RunChunks(p, s, rows).value)
  {
    ChunksFromPreserveIntegrity(p, s, rows, 0);
  }

  /** The chunks partition the rows: chunk `k` is rows `[1000 k, min(1000 k + 1000, n))`,
      every chunk but the last holds exactly 1000 rows, and the boundaries run
      from 0 to `n` without gap or overlap. */
  lemma ChunksPartition(n: nat, k: nat)
    requires k < NumChunks(n)
    ensures ChunkBoundary(0, n) == 0 && ChunkBoundary(NumChunks(n), n) == n
    ensures ChunkBoundary(k, n) == 1000 * k < n
    ensures ChunkBoundary(k + 1, n) == Min(1000 * k + 1000, n)
    ensures k + 1 < NumChunks(n) ==> ChunkBoundary(k + 1, n) - ChunkBoundary(k, n) == 1000
  {
  }
}

=== FILE: pagination.dfy ===
/** Offset pagination shared by the segment list, the segment's customer list and
    the refresh-log list: page `p` skips `(p - 1) * limit` rows and takes `limit`. */
module Pagination {
  import opened Wrappers

  datatype PageMeta = PageMeta(page: int, limit: int, total: nat, totalPages: nat)

  /** One page of a listing together with its metadata. */
  datatype Listing<T> = Listing(data: seq<T>, meta: PageMeta)

  /** The number of rows before page `page`. */
  function Skip(page: int, limit: int): nat
    requires page >= 1 && limit >= 1
  {
    (page - 1) * limit
  }

  /** The page count: the ceiling of `total / limit`, the fewest pages of `limit`
      rows that hold `total` rows. */
  function TotalPages(total: nat, limit: int): (r: nat)
    requires limit >= 1
    ensures total <= r * limit
    ensures r == 0 || (r - 1) * limit < total
  {
    var r := (total + limit - 1) / limit;
    assert r * limit <= total + limit - 1 < (r + 1) * limit;
    r
  }

  /** The rows of page `page`, in listing order. */
  function PageOf<T>(xs: seq<T>, page: int, limit: int): (r: seq<T>)
    requires page >= 1 && limit >= 1
    ensures forall i | 0 <= i < |r| :: Skip(page, limit) + i < |xs| && r[i] == xs[Skip(page, limit) + i]
    ensures |r| == Min(limit, |xs| - Min(Skip(page, limit), |xs|))
  {
    var lo := Min(Skip(page, limit), |xs|);
    var hi := Min(Skip(page, limit) + limit, |xs|);
    xs[lo..hi]
  }

  /** The rows of a table kept in creation order, listed newest first. */
  function NewestFirst<T>(xs: seq<T>): (r: seq<T>)
    ensures |r| == |xs|
    ensures forall j | 0 <= j < |xs| :: r[j] == xs[|xs| - 1 - j]
  {
    if |xs| == 0 then [] else [xs[|xs| - 1]] + NewestFirst(xs[..|xs| - 1])
  }

  /** The listing returned for one page, with page, limit, total and page count. */
  function List<T>(xs: seq<T>, page: int, limit: int): (r: Listing<T>)
    requires page >= 1 && limit >= 1
    ensures r.meta.total == |xs| && r.meta.page == page && r.meta.limit == limit
    ensures r.meta.totalPages == TotalPages(|xs|, limit)
    ensures r.data == PageOf(xs, page, limit)
  {
    Listing(PageOf(xs, page, limit), PageMeta(page, limit, |xs|, TotalPages(|xs|, limit)))
  }

  /** One page of a table kept in creation order, listed newest first, with the
      page count. */
  function ListNewestFirst<T>(xs: seq<T>, page: int, limit: int): (r: Listing<T>)
    requires page >= 1 && limit >= 1
    ensures r.meta.total == |xs| && r.meta.page == page && r.meta.limit == limit
    ensures r.meta.totalPages == TotalPages(|xs|, limit)
    ensures |r.data| == Min(limit, |xs| - Min(Skip(page, limit), |xs|))
    ensures forall j | 0 <= j < |r.data| ::
      && Skip(page, limit) + j < |xs|
      && r.data[j] == xs[|xs| - 1 - (Skip(page, limit) + j)]
  {
    var ys := NewestFirst(xs);
    var r := List(ys, page, limit);
    forall j | 0 <= j < |r.data|
      ensures Skip(page, limit) + j < |xs|
      ensures r.data[j] == xs[|xs| - 1 - (Skip(page, limit) + j)]
    {
      assert r.data[j] == ys[Skip(page, limit) + j];
    }
    r
  }

  /** A page holds rows exactly when its number is between 1 and the page count. */
  lemma PageNonEmptyIff<T>(xs: seq<T>, page: int, limit: int)
    requires page >= 1 && limit >= 1
    ensures |PageOf(xs, page, limit)| > 0 <==> page <= TotalPages(|xs|, limit)
  {
    var n := TotalPages(|xs|, limit);
    if page <= n {
      MulMonotone(page - 1, n - 1, limit);
      assert Skip(page, limit) < |xs|;
    } else {
      MulMonotone(n, page - 1, limit);
      assert Skip(page, limit) >= |xs|;
    }
  }

  lemma MulMonotone(a: int, b: int, c: nat)
    requires a <= b
    ensures a * c <= b * c
  {
  }

  /** Every row appears on the page its position determines: row `j` is entry
      `j % limit` of page `j / limit + 1`, so the pages cover the rows in order
      with no gap or overlap. */
  lemma PageLocates<T>(xs: seq<T>, limit: int, j: int)
    requires limit >= 1 && 0 <= j < |xs|
    ensures j / limit + 1 <= TotalPages(|xs|, limit)
    ensures j % limit < |PageOf(xs, j / limit + 1, limit)|
    ensures PageOf(xs, j / limit + 1, limit)[j % limit] == xs[j]
  {
    var p := j / limit + 1;
    assert Skip(p, limit) + j % limit == j;
    PageNonEmptyIff(xs, p, limit);
  }

  /** Twelve rows in pages of five: three pages, the second one full, the third
      holding the last two rows. */
  lemma TwelveRowsInPagesOfFive<T>(xs: seq<T>)
    requires |xs| == 12
    ensures TotalPages(|xs|, 5) == 3
    ensures PageOf(xs, 2, 5) == xs[5..10]
    ensures PageOf(xs, 3, 5) == xs[10..]
  {
  }
}

=== FILE: segmentation.dfy ===
/** Segment matching and enrichment: a segment's criteria select the customers
    whose orders, after a row filter on date, category and region, aggregate to
    a count and revenue inside the configured bounds. */
module Segmentation {
  import opened Wrappers
  import opened Tables
  import Pagination

  /** Segmentation criteria. Every bound is optional; an absent category or
      region list is the empty list, which means "no filter". Purchase bounds are
      reals because the stored criteria are arbitrary JSON numbers. */
  datatype Criteria = Criteria(
    minPurchases: Option<real>,
    maxPurchases: Option<real>,
    minRevenue: Option<real>,
    maxRevenue: Option<real>,
    categories: seq<string>,
    regions: seq<string>,
    startDate: Option<int>,
    endDate: Option<int>)

  const NoCriteria := Criteria(None, None, None, None, [], [], None, None)

  datatype Segment = Segment(id: string, name: string, description: string, criteria: Criteria, createdAt: int)

  /** Inclusive date range; an absent end is open on that side. */
  predicate InDateRange(d: int, startDate: Option<int>, endDate: Option<int>)
  {
    && (startDate.None? || startDate.value <= d)
    && (endDate.None? || d <= endDate.value)
  }

  /** The category of the order's product, reached through the product table. */
  function CategoryOf(products: seq<Product>, o: Order): Option<string>
  {
    match FindProduct(products, o.productId)
    case Some(p) => Some(p.category)
    case None => None
  }

  predicate CategoryAllowed(products: seq<Product>, categories: seq<string>, o: Order)
  {
    |categories| == 0 || (CategoryOf(products, o).Some? && CategoryOf(products, o).value in categories)
  }

  predicate RegionAllowed(regions: seq<string>, o: Order)
  {
    |regions| == 0 || o.region in regions
  }

  /** The row filter of the grouped query: date, category and region together. */
  predicate PassesRowFilter(products: seq<Product>, c: Criteria, o: Order)
  {
    && InDateRange(o.dateOfSale, c.startDate, c.endDate)
    && CategoryAllowed(products, c.categories, o)
    && RegionAllowed(c.regions, o)
  }

  /** The orders that pass the row filter, in table order. */
  function FilterOrders(products: seq<Product>, c: Criteria, os: seq<Order>): (r: seq<Order>)
    ensures |r| <= |os|
    ensures forall o :: o in r <==> o in os && PassesRowFilter(products, c, o)
  {
    if |os| == 0 then []
    else
      var rest := FilterOrders(products, c, os[1..]);
      assert forall o :: o in os <==> o == os[0] || o in os[1..];
      if PassesRowFilter(products, c, os[0]) then [os[0]] + rest else rest
  }

  /** Reference aggregates for one customer key: how many of the orders carry
      that key, and the sum of their `totalAmount`. */
  function CountOf(os: seq<Order>, key: string): nat
  {
    if |os| == 0 then 0
    else (if os[0].customerId == key then 1 else 0) + CountOf(os[1..], key)
  }

  function SumOf(os: seq<Order>, key: string): real
  {
    if |os| == 0 then 0.0
    else (if os[0].customerId == key then os[0].totalAmount else 0.0) + SumOf(os[1..], key)
  }

  /** A key with no orders has no revenue. */
  lemma NoOrdersNoRevenue(os: seq<Order>, key: string)
    requires CountOf(os, key) == 0
    ensures SumOf(os, key) == 0.0
  {
  }

  datatype Aggregate = Aggregate(count: nat, sum: real)

  /** Groups orders by customer key in one pass. A key has a group exactly when
      some order carries it, and the group holds that key's count and sum. */
  function GroupBy(os: seq<Order>): (g: map<string, Aggregate>)
    ensures forall k :: k in g <==> CountOf(os, k) > 0
    ensures forall k | k in g :: g[k] == Aggregate(CountOf(os, k), SumOf(os, k))
  {
    if |os| == 0 then map[]
    else
      var g := GroupBy(os[1..]);
      var k := os[0].customerId;
      var a := if k in g then g[k] else Aggregate(0, 0.0);
      var g' := g[k := Aggregate(a.count + 1, a.sum + os[0].totalAmount)];
      assert forall k' | k' in g' :: g'[k'] == Aggregate(CountOf(os, k'), SumOf(os, k')) by {
        forall k' | k' in g' ensures g'[k'] == Aggregate(CountOf(os, k'), SumOf(os, k')) {
          assert CountOf(os, k') == (if k == k' then 1 else 0) + CountOf(os[1..], k');
          assert SumOf(os, k') == (if k == k' then os[0].totalAmount else 0.0) + SumOf(os[1..], k');
          if k' == k && k !in g { NoOrdersNoRevenue(os[1..], k); }
        }
      }
      g'
  }

  /** A lower bound constrains only when it is set and positive. */
  predicate AtLeast(v: real, bound: Option<real>)
  {
    bound.None? || bound.value <= 0.0 || v >= bound.value
  }

  /** An upper bound constrains whenever it is set. */
  predicate AtMost(v: real, bound: Option<real>)
  {
    bound.None? || v <= bound.value
  }

  /** The having clause: count and revenue bounds on one group. */
  predicate Having(c: Criteria, a: Aggregate)
  {
    && AtLeast(a.count as real, c.minPurchases)
    && AtMost(a.count as real, c.maxPurchases)
    && AtLeast(a.sum, c.minRevenue)
    && AtMost(a.sum, c.maxRevenue)
  }

  /** Reference definition of a match: the key has at least one order passing
      the row filter, and the count and revenue of those orders meet the bounds. */
  predicate Qualifies(s: Store, c: Criteria, key: string)
  {
    var os := FilterOrders(s.products, c, s.orders);
    CountOf(os, key) > 0 && Having(c, Aggregate(CountOf(os, key), SumOf(os, key)))
  }

  /** The customer keys of the groups that survive the having clause. */
  function SurvivingKeys(s: Store, c: Criteria): (keys: set<string>)
    ensures forall k :: k in keys <==> Qualifies(s, c, k)
  {
    var g := GroupBy(FilterOrders(s.products, c, s.orders));
    set k | k in g && Having(c, g[k])
  }

  /** The ids (table positions) from `from` onward of the customers whose key is
      in `keys`, in table order. */
  function ResolveFrom(customers: seq<Customer>, keys: set<string>, from: nat): (r: seq<nat>)
    requires from <= |customers|
    ensures forall j | 0 <= j < |r| :: from <= r[j] < |customers| && customers[r[j]].customerId in keys
    ensures forall i | from <= i < |customers| && customers[i].customerId in keys :: i in r
    ensures forall j, j' | 0 <= j < j' < |r| :: r[j] < r[j']
    decreases |customers| - from
  {
    if from == |customers| then []
    else
      var rest := ResolveFrom(customers, keys, from + 1);
      if customers[from].customerId in keys then [from] + rest else rest
  }

  /** The ids of the customers that match the criteria: exactly the customers
      whose key qualifies, each once, in table order. */
  function FindMatchingCustomerIds(s: Store, c: Criteria): (ids: seq<nat>)
    ensures forall j | 0 <= j < |ids| :: ids[j] < |s.customers|
    ensures forall i :: i in ids <==> 0 <= i < |s.customers| && Qualifies(s, c, s.customers[i].customerId)
    ensures forall j, j' | 0 <= j < j' < |ids| :: ids[j] < ids[j']
  {
    ResolveFrom(s.customers, SurvivingKeys(s, c), 0)
  }

  /** A matched customer with its presentation metrics. */
  datatype EnrichedCustomer = EnrichedCustomer(
    id: nat,
    customer: Customer,
    totalSpent: real,
    totalOrders: nat,
    avgOrderValue: real,
    categories: seq<string>,
    orders: seq<Order>)

  /** The customer's orders inside the date range, in table order. The category
      and region filters of the criteria are not applied here. */
  function DatedOrdersOf(os: seq<Order>, key: string, startDate: Option<int>, endDate: Option<int>): (r: seq<Order>)
    ensures forall o :: o in r <==> o in os && o.customerId == key && InDateRange(o.dateOfSale, startDate, endDate)
  {
    if |os| == 0 then []
    else
      var rest := DatedOrdersOf(os[1..], key, startDate, endDate);
      assert forall o :: o in os <==> o == os[0] || o in os[1..];
      if os[0].customerId == key && InDateRange(os[0].dateOfSale, startDate, endDate) then [os[0]] + rest else rest
  }

  function Total(os: seq<Order>): real
  {
    if |os| == 0 then 0.0 else os[0].totalAmount + Total(os[1..])
  }

  /** The average order value, zero when there are no orders. */
  function Average(total: real, count: nat): (r: real)
    ensures count > 0 ==> r * (count as real) == total
    ensures count == 0 ==> r == 0.0
  {
    if count > 0 then total / (count as real) else 0.0
  }

  /** The categories of the orders' products, one entry per order whose product
      exists. */
  function OrderCategories(products: seq<Product>, os: seq<Order>): (r: seq<string>)
    ensures forall x :: x in r <==> exists o :: o in os && CategoryOf(products, o) == Some(x)
  {
    if |os| == 0 then []
    else
      var rest := OrderCategories(products, os[1..]);
      assert forall o :: o in os <==> o == os[0] || o in os[1..];
      match CategoryOf(products, os[0])
      case Some(x) => [x] + rest
      case None => rest
  }

  /** Each value of `xs` once, in order of first occurrence. */
  function Distinct(xs: seq<string>): (r: seq<string>)
    ensures forall x :: x in r <==> x in xs
    ensures forall i, j | 0 <= i < j < |r| :: r[i] != r[j]
  {
    if |xs| == 0 then []
    else
      var init := xs[..|xs| - 1];
      var x := xs[|xs| - 1];
      assert xs == init + [x];
      var d := Distinct(init);
      if x in d then d else d + [x]
  }

  /** `avg` is the zero-safe average of `count` values summing to `total`. */
  predicate IsAverage(avg: real, total: real, count: nat)
  {
    && (count > 0 ==> avg * (count as real) == total)
    && (count == 0 ==> avg == 0.0)
  }

  /** The presentation metrics of a customer over the given orders. */
  function Metrics(id: nat, customer: Customer, products: seq<Product>, os: seq<Order>): (e: EnrichedCustomer)
    ensures e.id == id && e.customer == customer && e.orders == os
    ensures e.totalOrders == |os| && e.totalSpent == Total(os)
    ensures IsAverage(e.avgOrderValue, e.totalSpent, e.totalOrders)
    ensures forall i, j | 0 <= i < j < |e.categories| :: e.categories[i] != e.categories[j]
  {
    var spent := Total(os);
    EnrichedCustomer(id, customer, spent, |os|, Average(spent, |os|), Distinct(OrderCategories(products, os)), os)
  }

  /** Enrichment of customer `id` from its date-filtered orders. The record
      carries those orders, as the source's customer row carries its included
      `orders`. */
  function Enrich(s: Store, c: Criteria, id: nat): (e: EnrichedCustomer)
    requires id < |s.customers|
    ensures e.id == id && e.customer == s.customers[id]
    ensures forall o :: o in e.orders <==>
      o in s.orders && o.customerId == s.customers[id].customerId && InDateRange(o.dateOfSale, c.startDate, c.endDate)
    ensures e.totalOrders == |e.orders| && e.totalSpent == Total(e.orders)
    ensures IsAverage(e.avgOrderValue, e.totalSpent, e.totalOrders)
    ensures forall i, j | 0 <= i < j < |e.categories| :: e.categories[i] != e.categories[j]
  {
    Metrics(id, s.customers[id], s.products, DatedOrdersOf(s.orders, s.customers[id].customerId, c.startDate, c.endDate))
  }

  datatype SegmentCustomers = SegmentCustomers(customers: seq<EnrichedCustomer>, total: nat)

  /** The segment with the given id, if there is one. */
  function FindSegment(segments: seq<Segment>, segmentId: string): (r: Option<Segment>)
    ensures r.Some? ==> r.value in segments && r.value.id == segmentId
    ensures r.None? ==> forall j | 0 <= j < |segments| :: segments[j].id != segmentId
  {
    if |segments| == 0 then None
    else if segments[0].id == segmentId then Some(segments[0])
    else FindSegment(segments[1..], segmentId)
  }

  function EnrichAll(s: Store, c: Criteria, ids: seq<nat>): (r: seq<EnrichedCustomer>)
    requires forall j | 0 <= j < |ids| :: ids[j] < |s.customers|
    ensures |r| == |ids|
    ensures forall j | 0 <= j < |r| :: r[j] == Enrich(s, c, ids[j])
  {
    if |ids| == 0 then [] else [Enrich(s, c, ids[0])] + EnrichAll(s, c, ids[1..])
  }

  /** One page of a segment's customers, enriched, with the total match count.
      An unknown segment id fails with "Segment not found" whatever the store holds. */
  function GetCustomersBySegment(segments: seq<Segment>, segmentId: string, s: Store, page: int, limit: int)
    : (r: Result<SegmentCustomers, string>)
    requires page >= 1 && limit >= 1
    ensures r.Failure? <==> forall j | 0 <= j < |segments| :: segments[j].id != segmentId
    ensures r.Failure? ==> r.error == "Segment not found"
    ensures r.Success? ==>
      var crit := FindSegment(segments, segmentId).value.criteria;
      var ids := FindMatchingCustomerIds(s, crit);
      && r.value.total == |ids|
      && forall j | 0 <= j < |r.value.customers| ::
           && Pagination.Skip(page, limit) + j < |ids|
           && r.value.customers[j] == Enrich(s, crit, ids[Pagination.Skip(page, limit) + j])
    ensures r.Success? ==>
      |r.value.customers| == Min(limit, r.value.total - Min(Pagination.Skip(page, limit), r.value.total))
  {
    match FindSegment(segments, segmentId)
    case None => Failure("Segment not found")
    case Some(seg) =>
      var ids := FindMatchingCustomerIds(s, seg.criteria);
      var pageIds := Pagination.PageOf(ids, page, limit);
      assert forall j | 0 <= j < |pageIds| :: pageIds[j] in ids;
      Success(SegmentCustomers(EnrichAll(s, seg.criteria, pageIds), |ids|))
  }

  /** Creation times never decrease along the segment table. */
  predicate CreatedInOrder(segments: seq<Segment>)
  {
    forall i, j | 0 <= i < j < |segments| :: segments[i].createdAt <= segments[j].createdAt
  }

  /** Stores a new segment under a fresh id, stamped with the creation time
      `now`. The criteria are stored as given. */
  function CreateSegment(segments: seq<Segment>, id: string, name: string, description: string, criteria: Criteria, now: int)
    : (r: seq<Segment>)
    requires forall j | 0 <= j < |segments| :: segments[j].id != id
    ensures |r| == |segments| + 1 && r[..|segments|] == segments
    ensures FindSegment(r, id) == Some(Segment(id, name, description, criteria, now))
    ensures forall other | other != id :: FindSegment(r, other) == FindSegment(segments, other)
  {
    var r := segments + [Segment(id, name, description, criteria, now)];
    FindAppended(segments, Segment(id, name, description, criteria, now));
    r
  }

  lemma {:induction false} FindAppended(segments: seq<Segment>, seg: Segment)
    ensures FindSegment(segments + [seg], seg.id) ==
      if FindSegment(segments, seg.id).Some? then FindSegment(segments, seg.id) else Some(seg)
    ensures forall other | other != seg.id :: FindSegment(segments + [seg], other) == FindSegment(segments, other)
  {
    if |segments| > 0 {
      assert (segments + [seg])[1..] == segments[1..] + [seg];
      FindAppended(segments[1..], seg);
    } else {
      assert ([seg])[1..] == [];
    }
  }

  /** A segment created no earlier than the last one keeps the table in
      creation order. */
  lemma CreateKeepsOrder(segments: seq<Segment>, id: string, name: string, description: string, criteria: Criteria, now: int)
    requires forall j | 0 <= j < |segments| :: segments[j].id != id
    requires CreatedInOrder(segments)
    requires |segments| == 0 || segments[|segments| - 1].createdAt <= now
    ensures CreatedInOrder(CreateSegment(segments, id, name, description, criteria, now))
  {
    var r := CreateSegment(segments, id, name, description, criteria, now);
    forall i, j | 0 <= i < j < |r| ensures r[i].createdAt <= r[j].createdAt {
      assert r[i] == segments[i];
      if j < |segments| {
        assert r[j] == segments[j];
      }
    }
  }

  /** One page of the segment list, newest first, with its page count. */
  function GetSegments(segments: seq<Segment>, page: int, limit: int): (r: Pagination.Listing<Segment>)
    requires page >= 1 && limit >= 1
    ensures r.meta.page == page && r.meta.limit == limit
    ensures r.meta.total == |segments| && r.meta.totalPages == Pagination.TotalPages(|segments|, limit)
    ensures |r.data| == Min(limit, |segments| - Min(Pagination.Skip(page, limit), |segments|))
    ensures forall j | 0 <= j < |r.data| ::
      && Pagination.Skip(page, limit) + j < |segments|
      && r.data[j] == segments[|segments| - 1 - (Pagination.Skip(page, limit) + j)]
  {
    Pagination.ListNewestFirst(segments, page, limit)
  }

  /** When the table is in creation order, every page lists segments from the
      latest created to the earliest. */
  lemma SegmentsListedNewestFirst(segments: seq<Segment>, page: int, limit: int)
    requires page >= 1 && limit >= 1
    requires CreatedInOrder(segments)
    ensures var d := GetSegments(segments, page, limit).data;
      forall j, j' | 0 <= j < j' < |d| :: d[j].createdAt >= d[j'].createdAt
  {
    var d := GetSegments(segments, page, limit).data;
    forall j, j' | 0 <= j < j' < |d| ensures d[j].createdAt >= d[j'].createdAt {
      var n := |segments|;
      var b := Pagination.Skip(page, limit);
      assert d[j] == segments[n - 1 - (b + j)] && d[j'] == segments[n - 1 - (b + j')];
    }
  }

  /** A segment just created heads the first page of the segment list. */
  lemma CreatedSegmentListedFirst(segments: seq<Segment>, id: string, name: string, description: string, criteria: Criteria, now: int, limit: int)
    requires forall j | 0 <= j < |segments| :: segments[j].id != id
    requires limit >= 1
    ensures var d := GetSegments(CreateSegment(segments, id, name, description, criteria, now), 1, limit).data;
      |d| > 0 && d[0] == Segment(id, name, description, criteria, now)
  {
    var r := CreateSegment(segments, id, name, description, criteria, now);
    Pagination.PageNonEmptyIff(Pagination.NewestFirst(r), 1, limit);
  }
}

=== FILE: segmentation_properties.dfy ===
/** Properties of segment matching and enrichment. */
module SegmentationProperties {
  import opened Wrappers
  import opened Tables
  import opened Segmentation

  /** A key has orders exactly when some order carries it. */
  lemma {:induction false} CountPositiveIff(os: seq<Order>, key: string)
    ensures CountOf(os, key) > 0 <==> exists j :: 0 <= j < |os| && os[j].customerId == key
  {
    if |os| > 0 {
      CountPositiveIff(os[1..], key);
      if os[0].customerId != key && CountOf(os[1..], key) > 0 {
        var j :| 0 <= j < |os[1..]| && os[1..][j].customerId == key;
        assert os[j + 1].customerId == key;
      }
      if os[0].customerId != key && CountOf(os[1..], key) == 0 {
        forall j | 0 <= j < |os| ensures os[j].customerId != key {
          if j > 0 { assert os[j] == os[1..][j - 1]; }
        }
      }
    }
  }

  /** Without criteria the row filter keeps every order. */
  lemma {:induction false} NoCriteriaKeepsAllOrders(products: seq<Product>, os: seq<Order>)
    ensures FilterOrders(products, NoCriteria, os) == os
  {
    if |os| > 0 {
      NoCriteriaKeepsAllOrders(products, os[1..]);
      assert [os[0]] + os[1..] == os;
    }
  }

  /** A segment with no criteria matches exactly the customers with at least one
      order; a customer without orders is never returned. */
  lemma EmptyCriteriaMatchesBuyers(s: Store, i: int)
    ensures i in FindMatchingCustomerIds(s, NoCriteria) <==>
      0 <= i < |s.customers| && exists j :: 0 <= j < |s.orders| && s.orders[j].customerId == s.customers[i].customerId
  {
    NoCriteriaKeepsAllOrders(s.products, s.orders);
    if 0 <= i < |s.customers| {
      CountPositiveIff(s.orders, s.customers[i].customerId);
    }
  }

  /** The row-filter fields of two criteria agree. */
  predicate SameRowFilter(c1: Criteria, c2: Criteria)
  {
    c1.categories == c2.categories && c1.regions == c2.regions
    && c1.startDate == c2.startDate && c1.endDate == c2.endDate
  }

  /** `b2` is a lower bound at least as strict as `b1`. */
  predicate StricterLower(b2: Option<real>, b1: Option<real>)
  {
    b1.None? || b1.value <= 0.0 || (b2.Some? && b2.value >= b1.value)
  }

  /** `b2` is an upper bound at least as strict as `b1`. */
  predicate StricterUpper(b2: Option<real>, b1: Option<real>)
  {
    b1.None? || (b2.Some? && b2.value <= b1.value)
  }

  predicate StricterBounds(c2: Criteria, c1: Criteria)
  {
    && StricterLower(c2.minPurchases, c1.minPurchases)
    && StricterUpper(c2.maxPurchases, c1.maxPurchases)
    && StricterLower(c2.minRevenue, c1.minRevenue)
    && StricterUpper(c2.maxRevenue, c1.maxRevenue)
  }

  /** `narrow` admits a subset of what `wide` admits, as an allowed-list filter
      where the empty list admits everything. */
  predicate NarrowerList(narrow: seq<string>, wide: seq<string>)
  {
    |wide| == 0 || (|narrow| > 0 && forall x | x in narrow :: x in wide)
  }

  /** `c2`'s row filter is at least as strict as `c1`'s. */
  predicate NarrowerRows(c2: Criteria, c1: Criteria)
  {
    && NarrowerList(c2.categories, c1.categories)
    && NarrowerList(c2.regions, c1.regions)
    && (c1.startDate.None? || (c2.startDate.Some? && c2.startDate.value >= c1.startDate.value))
    && (c1.endDate.None? || (c2.endDate.Some? && c2.endDate.value <= c1.endDate.value))
  }

  lemma {:induction false} SameRowFilterSameOrders(products: seq<Product>, c1: Criteria, c2: Criteria, os: seq<Order>)
    requires SameRowFilter(c1, c2)
    ensures FilterOrders(products, c1, os) == FilterOrders(products, c2, os)
  {
    if |os| > 0 {
      SameRowFilterSameOrders(products, c1, c2, os[1..]);
    }
  }

  /** Tightening only the count and revenue bounds never adds a customer. */
  lemma BoundsMonotone(s: Store, c1: Criteria, c2: Criteria, i: int)
    requires SameRowFilter(c1, c2) && StricterBounds(c2, c1)
    ensures i in FindMatchingCustomerIds(s, c2) ==> i in FindMatchingCustomerIds(s, c1)
  {
    SameRowFilterSameOrders(s.products, c1, c2, s.orders);
  }

  lemma NarrowerRowsPass(products: seq<Product>, c1: Criteria, c2: Criteria, o: Order)
    requires NarrowerRows(c2, c1) && PassesRowFilter(products, c2, o)
    ensures PassesRowFilter(products, c1, o)
  {
  }

  /** Narrowing the row filter can only shrink a key's order count, and with
      non-negative amounts, its revenue. */
  lemma {:induction false} NarrowerRowsSmallerAggregates(products: seq<Product>, c1: Criteria, c2: Criteria, os: seq<Order>, key: string)
    requires NarrowerRows(c2, c1)
    requires forall j | 0 <= j < |os| :: os[j].totalAmount >= 0.0
    ensures CountOf(FilterOrders(products, c2, os), key) <= CountOf(FilterOrders(products, c1, os), key)
    ensures SumOf(FilterOrders(products, c2, os), key) <= SumOf(FilterOrders(products, c1, os), key)
  {
    if |os| > 0 {
      NarrowerRowsSmallerAggregates(products, c1, c2, os[1..], key);
      var f1 := FilterOrders(products, c1, os[1..]);
      var f2 := FilterOrders(products, c2, os[1..]);
      var o := os[0];
      if PassesRowFilter(products, c2, o) {
        NarrowerRowsPass(products, c1, c2, o);
        assert ([o] + f1)[1..] == f1 && ([o] + f2)[1..] == f2;
      } else if PassesRowFilter(products, c1, o) {
        assert ([o] + f1)[1..] == f1;
      }
    }
  }

  /** Tightening the row filter and the lower bounds never adds a customer, as
      long as the wider criteria set no upper bound and no order has a negative
      amount. Without those two conditions the claim fails: see
      `UpperBoundLetsNarrowerDatesMatchMore`. */
  lemma RowsMonotone(s: Store, c1: Criteria, c2: Criteria, i: int)
    requires NarrowerRows(c2, c1) && StricterBounds(c2, c1)
    requires c1.maxPurchases.None? && c1.maxRevenue.None?
    requires forall j | 0 <= j < |s.orders| :: s.orders[j].totalAmount >= 0.0
    ensures i in FindMatchingCustomerIds(s, c2) ==> i in FindMatchingCustomerIds(s, c1)
  {
    if i in FindMatchingCustomerIds(s, c2) {
      NarrowerRowsSmallerAggregates(s.products, c1, c2, s.orders, s.customers[i].customerId);
    }
  }

  function SampleOrder(orderId: string, customerId: string, category: string, dateOfSale: int): Order
  {
    Order(orderId, customerId, category, "North", dateOfSale, 1, 10.0, 0.0, 0.0, "Card", 10.0)
  }

  /** One customer with orders on days 1 and 2, whose product key doubles as its
      category. */
  const TwoDayStore := Store(
    [Customer("C1", "Ann", "ann@example.com", "1 Road")],
    [Product("Electronics", "Phone", "Electronics", 10.0)],
    [SampleOrder("O1", "C1", "Electronics", 1), SampleOrder("O2", "C1", "Electronics", 2)])

  /** With `maxPurchases = 1` the customer's two orders exclude it, but adding a
      start date that drops one order lets it match: narrowing the row filter
      can enlarge the match set once an upper bound is set. */
  lemma UpperBoundLetsNarrowerDatesMatchMore()
    ensures 0 !in FindMatchingCustomerIds(TwoDayStore, NoCriteria.(maxPurchases := Some(1.0)))
    ensures 0 in FindMatchingCustomerIds(TwoDayStore, NoCriteria.(maxPurchases := Some(1.0), startDate := Some(2)))
  {
    var s := TwoDayStore;
    var o1 := s.orders[0];
    var o2 := s.orders[1];
    var c1 := NoCriteria.(maxPurchases := Some(1.0));
    var c2 := c1.(startDate := Some(2));
    assert s.orders[1..] == [o2] && s.orders[1..][1..] == [];
    assert FilterOrders(s.products, c1, s.orders) == [o1, o2];
    assert CountOf([o1, o2], "C1") == 2 by { assert [o1, o2][1..] == [o2]; }
    assert FilterOrders(s.products, c2, s.orders) == [o2];
    assert CountOf([o2], "C1") == 1;
  }

  /** A store where customer C1 has one Electronics order and five orders in
      other categories. */
  const MixedStore := Store(
    [Customer("C1", "Ann", "ann@example.com", "1 Road")],
    [Product("Electronics", "Phone", "Electronics", 10.0), Product("Books", "Novel", "Books", 10.0)],
    [SampleOrder("O1", "C1", "Electronics", 1), SampleOrder("O2", "C1", "Books", 1),
     SampleOrder("O3", "C1", "Books", 1), SampleOrder("O4", "C1", "Books", 1),
     SampleOrder("O5", "C1", "Books", 1), SampleOrder("O6", "C1", "Books", 1)])

  lemma {:induction false} NothingPassesNothingKept(products: seq<Product>, c: Criteria, os: seq<Order>)
    requires forall j | 0 <= j < |os| :: !PassesRowFilter(products, c, os[j])
    ensures FilterOrders(products, c, os) == []
  {
    if |os| > 0 {
      NothingPassesNothingKept(products, c, os[1..]);
    }
  }

  lemma MixedStoreElectronicsOrders()
    ensures FilterOrders(MixedStore.products, NoCriteria.(minPurchases := Some(2.0), categories := ["Electronics"]), MixedStore.orders)
      == [MixedStore.orders[0]]
  {
    var s := MixedStore;
    var c := NoCriteria.(minPurchases := Some(2.0), categories := ["Electronics"]);
    var os := s.orders;
    assert s.products[1..] == [s.products[1]];
    assert FindProduct(s.products, "Books") == Some(s.products[1]);
    assert forall j | 0 <= j < |os[1..]| :: os[1..][j].productId == "Books";
    NothingPassesNothingKept(s.products, c, os[1..]);
  }

  lemma MixedStoreAllOrders()
    ensures CountOf(FilterOrders(MixedStore.products, NoCriteria.(minPurchases := Some(2.0)), MixedStore.orders), "C1") >= 2
  {
    var s := MixedStore;
    var os := s.orders;
    NoCriteriaKeepsAllOrders(s.products, os);
    SameRowFilterSameOrders(s.products, NoCriteria, NoCriteria.(minPurchases := Some(2.0)), os);
    assert os[1..][1..] == os[2..];
  }

  /** `minPurchases = 2` with `categories = ["Electronics"]` counts only the
      Electronics orders, so the customer does not match, although it has six
      orders in all. */
  lemma CategoryFilterAppliesBeforeCount()
    ensures 0 !in FindMatchingCustomerIds(MixedStore, NoCriteria.(minPurchases := Some(2.0), categories := ["Electronics"]))
    ensures 0 in FindMatchingCustomerIds(MixedStore, NoCriteria.(minPurchases := Some(2.0)))
  {
    var s := MixedStore;
    var filtered := NoCriteria.(minPurchases := Some(2.0), categories := ["Electronics"]);
    var unfiltered := NoCriteria.(minPurchases := Some(2.0));
    assert s.customers[0].customerId == "C1";
    MixedStoreElectronicsOrders();
    assert CountOf([s.orders[0]], "C1") == 1;
    assert !Qualifies(s, filtered, "C1");
    MixedStoreAllOrders();
    assert Qualifies(s, unfiltered, "C1");
  }

  /** The row filter keeps each passing order as often as it occurs, and drops
      every other order. */
  lemma {:induction false} FilterOrdersMultiplicity(products: seq<Product>, c: Criteria, os: seq<Order>, o: Order)
    ensures multiset(FilterOrders(products, c, os))[o] == if PassesRowFilter(products, c, o) then multiset(os)[o] else 0
    decreases |os|
  {
    if |os| > 0 {
      assert os == [os[0]] + os[1..];
      FilterOrdersMultiplicity(products, c, os[1..], o);
    }
  }

  /** A customer's dated orders keep each of its orders in the date range as
      often as it occurs, and no other order. */
  lemma {:induction false} DatedOrdersMultiplicity(os: seq<Order>, key: string, startDate: Option<int>, endDate: Option<int>, o: Order)
    ensures multiset(DatedOrdersOf(os, key, startDate, endDate))[o] ==
      if o.customerId == key && InDateRange(o.dateOfSale, startDate, endDate) then multiset(os)[o] else 0
    decreases |os|
  {
    if |os| > 0 {
      assert os == [os[0]] + os[1..];
      DatedOrdersMultiplicity(os[1..], key, startDate, endDate, o);
    }
  }

  /** The criteria with the category and region filters dropped: the filter
      enrichment uses. */
  function DateOnly(c: Criteria): (d: Criteria)
    ensures d.categories == [] && d.regions == []
    ensures d.startDate == c.startDate && d.endDate == c.endDate
  {
    c.(categories := [], regions := [])
  }

  lemma {:induction false} DatedOrdersAggregate(products: seq<Product>, c: Criteria, os: seq<Order>, key: string)
    ensures |DatedOrdersOf(os, key, c.startDate, c.endDate)| == CountOf(FilterOrders(products, DateOnly(c), os), key)
    ensures Total(DatedOrdersOf(os, key, c.startDate, c.endDate)) == SumOf(FilterOrders(products, DateOnly(c), os), key)
  {
    if |os| > 0 {
      DatedOrdersAggregate(products, c, os[1..], key);
      var f := FilterOrders(products, DateOnly(c), os[1..]);
      var d := DatedOrdersOf(os[1..], key, c.startDate, c.endDate);
      if InDateRange(os[0].dateOfSale, c.startDate, c.endDate) {
        assert ([os[0]] + f)[1..] == f;
        if os[0].customerId == key { assert ([os[0]] + d)[1..] == d; }
      }
    }
  }

  /** Enrichment totals are the reference count and revenue of the customer's
      orders under the date filter alone: categories and regions are not
      re-applied. */
  lemma EnrichUsesDateFilterOnly(s: Store, c: Criteria, id: nat)
    requires id < |s.customers|
    ensures Enrich(s, c, id).totalOrders == CountOf(FilterOrders(s.products, DateOnly(c), s.orders), s.customers[id].customerId)
    ensures Enrich(s, c, id).totalSpent == SumOf(FilterOrders(s.products, DateOnly(c), s.orders), s.customers[id].customerId)
  {
    DatedOrdersAggregate(s.products, c, s.orders, s.customers[id].customerId);
  }

  /** Without category or region filters, the metrics shown for a matched
      customer are the very count and revenue it was selected on, so they meet
      the segment's bounds. */
  lemma EnrichedMetricsMeetBounds(s: Store, c: Criteria, id: nat)
    requires |c.categories| == 0 && |c.regions| == 0
    requires id in FindMatchingCustomerIds(s, c)
    ensures id < |s.customers|
    ensures Enrich(s, c, id).totalOrders > 0
    ensures Having(c, Aggregate(Enrich(s, c, id).totalOrders, Enrich(s, c, id).totalSpent))
  {
    EnrichUsesDateFilterOnly(s, c, id);
    assert DateOnly(c) == c;
  }

  /** The enriched categories are exactly the categories of the customer's
      date-filtered orders, each listed once. */
  lemma EnrichedCategoriesExact(s: Store, c: Criteria, id: nat, x: string)
    requires id < |s.customers|
    ensures x in Enrich(s, c, id).categories <==>
      exists o :: o in s.orders && o.customerId == s.customers[id].customerId
        && InDateRange(o.dateOfSale, c.startDate, c.endDate)
        && CategoryOf(s.products, o) == Some(x)
  {
  }

  /** In a consistent store every date-filtered order contributes its category. */
  lemma EveryDatedOrderHasCategory(s: Store, c: Criteria, id: nat, o: Order)
    requires Consistent(s) && id < |s.customers|
    requires o in DatedOrdersOf(s.orders, s.customers[id].customerId, c.startDate, c.endDate)
    ensures CategoryOf(s.products, o).Some?
    ensures CategoryOf(s.products, o).value in Enrich(s, c, id).categories
  {
    var j :| 0 <= j < |s.orders| && s.orders[j] == o;
    assert o.productId in KeySet(s.products, ProductKey);
  }
}

=== FILE: skip_insert.dfy ===
/** Bulk insert with skip-on-duplicate semantics: each row whose business key is
    already stored, or was stored earlier in the same batch, is skipped; the
    stored row is never overwritten. */
module SkipInsert {
  import opened Tables

  lemma KeySetAppend<R>(t: seq<R>, x: R, key: R -> string)
    ensures KeySet(t + [x], key) == KeySet(t, key) + {key(x)}
  {
    var l := KeySet(t + [x], key);
    var rr := KeySet(t, key) + {key(x)};
    forall k | k in l ensures k in rr {
      var i :| 0 <= i < |t| + 1 && key((t + [x])[i]) == k;
      if i < |t| { assert (t + [x])[i] == t[i]; }
    }
    forall k | k in rr ensures k in l {
      if k == key(x) {
        assert (t + [x])[|t|] == x;
      } else {
        var i :| 0 <= i < |t| && key(t[i]) == k;
        assert (t + [x])[i] == t[i];
      }
    }
  }

  lemma KeySetConcat<R>(a: seq<R>, b: seq<R>, key: R -> string)
    ensures KeySet(a + b, key) == KeySet(a, key) + KeySet(b, key)
  {
    var l := KeySet(a + b, key);
    var rr := KeySet(a, key) + KeySet(b, key);
    forall k | k in l ensures k in rr {
      var i :| 0 <= i < |a + b| && key((a + b)[i]) == k;
      if i < |a| { assert (a + b)[i] == a[i]; } else { assert (a + b)[i] == b[i - |a|]; }
    }
    forall k | k in rr ensures k in l {
      if k in KeySet(a, key) {
        var i :| 0 <= i < |a| && key(a[i]) == k;
        assert (a + b)[i] == a[i];
      } else {
        var i :| 0 <= i < |b| && key(b[i]) == k;
        assert (a + b)[|a| + i] == b[i];
      }
    }
  }

  /** Inserts `rows` into table `t` in order, skipping every row whose key is
      already present. */
  function Insert<R>(t: seq<R>, rows: seq<R>, key: R -> string): (r: seq<R>)
    ensures |t| <= |r| <= |t| + |rows|
    ensures r[..|t|] == t
    ensures KeySet(r, key) == KeySet(t, key) + KeySet(rows, key)
    ensures UniqueKeys(t, key) ==> UniqueKeys(r, key)
    ensures forall i | |t| <= i < |r| :: r[i] in rows && key(r[i]) !in KeySet(t, key)
    decreases |rows|
  {
    if |rows| == 0 then
      assert KeySet(rows, key) == {};
      t
    else
      var x := rows[0];
      var t' := if key(x) in KeySet(t, key) then t else t + [x];
      KeySetAppend(t, x, key);
      assert KeySet(t', key) == KeySet(t, key) + {key(x)};
      assert UniqueKeys(t, key) ==> UniqueKeys(t', key);
      var r := Insert(t', rows[1..], key);
      KeySetConcat([x], rows[1..], key);
      assert [x] + rows[1..] == rows;
      assert KeySet([x], key) == {key(x)} by { assert [x][0] == x; }
      assert r[..|t|] == t by { assert r[..|t|] == r[..|t'|][..|t|]; }
      assert forall i | |t| <= i < |r| :: r[i] in rows && key(r[i]) !in KeySet(t, key) by {
        forall i | |t| <= i < |r| ensures r[i] in rows && key(r[i]) !in KeySet(t, key) {
          if i < |t'| {
            assert t' == t + [x] && r[i] == t'[i] == x;
          } else {
            assert r[i] in rows[1..];
          }
        }
      }
      r
  }

  /** Reference definition of what a skip-duplicate insert stores: row `j` of the
      batch is stored exactly when its key occurs neither in the table nor in an
      earlier row of the batch. */
  function NewRows<R>(t: seq<R>, rows: seq<R>, key: R -> string): seq<R>
    decreases |rows|
  {
    if |rows| == 0 then []
    else
      var init := rows[..|rows| - 1];
      var x := rows[|rows| - 1];
      NewRows(t, init, key)
        + (if key(x) in KeySet(t, key) + KeySet(init, key) then [] else [x])
  }

  lemma AppendAssoc<R>(a: seq<R>, b: seq<R>, x: R)
    ensures (a + b) + [x] == a + (b + [x])
  {
  }

  lemma InsertSingle<R>(t: seq<R>, x: R, key: R -> string)
    ensures Insert(t, [x], key) == if key(x) in KeySet(t, key) then t else t + [x]
  {
    assert [x][1..] == [];
  }

  /** Splitting a batch in two and inserting the halves one after the other
      stores the same rows as inserting the batch at once. */
  lemma {:induction false} InsertConcat<R>(t: seq<R>, a: seq<R>, b: seq<R>, key: R -> string)
    ensures Insert(t, a + b, key) == Insert(Insert(t, a, key), b, key)
    decreases |a|
  {
    if |a| == 0 {
      assert a + b == b;
    } else {
      var x := a[0];
      var t' := if key(x) in KeySet(t, key) then t else t + [x];
      assert (a + b)[0] == x;
      assert (a + b)[1..] == a[1..] + b;
      calc {
        Insert(t, a + b, key);
        Insert(t', a[1..] + b, key);
        { InsertConcat(t', a[1..], b, key); }
        Insert(Insert(t', a[1..], key), b, key);
      }
    }
  }

  /** The stored table is the old table followed by exactly the batch rows the
      reference definition selects: existing rows are kept, in place. */
  lemma {:induction false} InsertAppendsNewRows<R>(t: seq<R>, rows: seq<R>, key: R -> string)
    ensures Insert(t, rows, key) == t + NewRows(t, rows, key)
    decreases |rows|
  {
    if |rows| == 0 {
    } else {
      var init := rows[..|rows| - 1];
      var x := rows[|rows| - 1];
      assert rows == init + [x];
      InsertConcat(t, init, [x], key);
      InsertAppendsNewRows(t, init, key);
      var mid := Insert(t, init, key);
      InsertSingle(mid, x, key);
      assert KeySet(mid, key) == KeySet(t, key) + KeySet(init, key);
      var n := NewRows(t, init, key);
      assert Insert(t, rows, key) == Insert(mid, [x], key);
      if key(x) in KeySet(t, key) + KeySet(init, key) {
        assert NewRows(t, rows, key) == n + [];
        assert n + [] == n;
      } else {
        assert NewRows(t, rows, key) == n + [x];
        AppendAssoc(t, n, x);
      }
    }
  }

  /** A batch whose keys are all stored already changes nothing. */
  lemma {:induction false} InsertKnownKeys<R>(t: seq<R>, rows: seq<R>, key: R -> string)
    requires KeySet(rows, key) <= KeySet(t, key)
    ensures Insert(t, rows, key) == t
    decreases |rows|
  {
    if |rows| > 0 {
      assert key(rows[0]) in KeySet(rows, key);
      assert KeySet(rows[1..], key) <= KeySet(rows, key) by {
        forall k | k in KeySet(rows[1..], key) ensures k in KeySet(rows, key) {
          var i :| 0 <= i < |rows[1..]| && key(rows[1..][i]) == k;
          assert rows[1..][i] == rows[i + 1];
        }
      }
      InsertKnownKeys(t, rows[1..], key);
    }
  }

  /** Re-inserting the same batch leaves the table unchanged the second time. */
  lemma InsertIdempotent<R>(t: seq<R>, rows: seq<R>, key: R -> string)
    ensures Insert(Insert(t, rows, key), rows, key) == Insert(t, rows, key)
  {
    InsertKnownKeys(Insert(t, rows, key), rows, key);
  }
}

=== FILE: tables.dfy ===
/** The relational store, modelled as three append-only tables.
    A row's surrogate identifier is its position in its table: the system has no
    update or delete path for these tables, so positions never change. */
module Tables {
  import opened Wrappers

  datatype Customer = Customer(customerId: string, name: string, email: string, address: string)

  datatype Product = Product(productId: string, name: string, category: string, unitPrice: real)

  /** An order; `totalAmount` is computed once at ingestion and read by every aggregate. */
  datatype Order = Order(
    orderId: string,
    customerId: string,
    productId: string,
    region: string,
    dateOfSale: int,
    quantity: int,
    unitPrice: real,
    discount: real,
    shippingCost: real,
    paymentMethod: string,
    totalAmount: real)

  datatype Store = Store(customers: seq<Customer>, products: seq<Product>, orders: seq<Order>)

  /* Business keys, passed as key functions to the generic skip-duplicate insert. */
  function CustomerKey(c: Customer): string { c.customerId }
  function ProductKey(p: Product): string { p.productId }
  function OrderKey(o: Order): string { o.orderId }

  /** The set of keys occurring in a table. */
  function KeySet<R>(t: seq<R>, key: R -> string): set<string>
  {
    set i | 0 <= i < |t| :: key(t[i])
  }

  /** No two rows of the table share a business key (the unique constraint). */
  predicate UniqueKeys<R>(t: seq<R>, key: R -> string)
  {
    forall i, j | 0 <= i < j < |t| :: key(t[i]) != key(t[j])
  }

  /** The product with the given business key, if there is one. */
  function FindProduct(products: seq<Product>, productId: string): (r: Option<Product>)
    ensures r.Some? ==> r.value in products && r.value.productId == productId
    ensures r.None? <==> productId !in KeySet(products, ProductKey)
  {
    if |products| == 0 then None
    else if products[0].productId == productId then Some(products[0])
    else
      var r := FindProduct(products[1..], productId);
      assert KeySet(products, ProductKey) == {products[0].productId} + KeySet(products[1..], ProductKey) by {
        forall k | k in KeySet(products, ProductKey)
          ensures k in {products[0].productId} + KeySet(products[1..], ProductKey)
        {
          var i :| 0 <= i < |products| && products[i].productId == k;
          if i > 0 { assert products[1..][i - 1] == products[i]; }
        }
      }
      r
  }

  /** Foreign keys hold: every order references an existing customer and product. */
  predicate Consistent(s: Store)
  {
    forall i | 0 <= i < |s.orders| ::
      s.orders[i].customerId in KeySet(s.customers, CustomerKey)
      && s.orders[i].productId in KeySet(s.products, ProductKey)
  }

  /** The store's integrity constraints: unique business keys and foreign keys. */
  predicate Valid(s: Store)
  {
    && UniqueKeys(s.customers, CustomerKey)
    && UniqueKeys(s.products, ProductKey)
    && UniqueKeys(s.orders, OrderKey)
    && Consistent(s)
  }
}

=== FILE: wrappers.dfy ===
/** Optional values and results used throughout the model. */
module Wrappers {

  /** A value that may be absent: an unset optional field or a failed lookup. */
  datatype Option<+T> = None | Some(value: T)

  /** The outcome of an operation that either produces a value or raises an error. */
  datatype Result<+R, +E> = Success(value: R) | Failure(error: E)

  function Min(a: int, b: int): int
  {
    if a <= b then a else b
  }
}
